=== FILE: README.md ===
# Azure provider reconciliation, modelled in Dafny

The azure provider of the load-balancer controller runs one agent Deployment per
LoadBalancer custom resource. The provider reconciles a LoadBalancer in these steps:

1. It validates the LoadBalancer and returns the validation error, if any.
2. It looks the LoadBalancer up in the store. When it is gone, it cleans up without
   touching the status. It returns any other store error.
3. It gives up, with no error, on a stale UID.
4. When the LoadBalancer no longer asks for azure, it cleans up and clears the status.
5. It claims the Deployments that carry the provider's labels, and returns a claim error.
6. It returns, with no error, while the LoadBalancer is being deleted.
7. Otherwise it syncs the claimed Deployments.

The sync step works as follows. The first claimed Deployment whose name starts with
`<lb name>-provider-azure` is canonical. It is patched towards the desired Deployment,
unless the LoadBalancer is static. Every other Deployment is scaled to zero. The desired
Deployment is created when no claimed Deployment is canonical.

The model has six modules:

- `Wrappers` holds `Option` and `Result`.
- `Api` holds the records: LoadBalancer, Deployment, the calls against the cluster's
  mutation API (`Action`), errors, and `Env`. `Env` carries the configured image and the
  collaborators whose code is not modelled.
- `Generate` holds the label selector, the event filter and the desired Deployment. All
  three are pure functions.
- `Ensure` holds what `ensureDeployment` computes: `Patched` and `Differs`.
- `Plan` states, as functions of a pass's inputs, the calls a pass makes and the error it
  returns (`SyncOutcome`, `CleanupOutcome`, `DispatchOutcome`). It also proves what those
  calls amount to.
- `Azure` holds the class `Provider`. Its field `trace` records every mutation call the
  provider's own code makes, in order. Its methods follow the Go code statement by statement. `SyncLoadBalancer`,
  `Sync` (with its loop `SyncLoop` and one turn `SyncOne`) and `Cleanup` are proved to
  append exactly the calls, and return exactly the error, that `Plan` prescribes.
  `EnsureDeployment` makes no call and returns no error: it is proved to build exactly
  `Ensure.Patched` and to report exactly `Ensure.Differs`.

The cluster API is modelled as follows:

- Each mutation call goes through `Provider.Call`.
- The answer to the n-th call is `env.respond(n, action)`. This is an arbitrary function,
  so every pattern of API failures is covered.
- A reconciliation pass reads the lister's answer and the ref manager's claim as one
  `Cluster` snapshot.

## Model

| member | source | states |
|---|---|---|
| Generate.Selector | pkg/provider/providers/azure/azure.go:127-132 | The selector has exactly the keys created-by and provider. provider maps to "azure"; created-by maps to the created-by format applied to the LoadBalancer's namespace and name. |
| Generate.FilteredByLabel | pkg/provider/providers/azure/azure.go:139-145 | Definition, no contract: the Deployment event filter, true when the labels do not match provider=azure. Its meaning is stated by `Generate.FilteredByLabelIff`. |
| Generate.FilteredByLabelIff | pkg/provider/providers/azure/azure.go:139-145 | A Deployment event is filtered out exactly when its labels lack provider=azure. |
| Generate.SelectedNeverFiltered | pkg/provider/providers/azure/azure.go:127-145 | Any label set matched by a LoadBalancer's selector passes the event filter. |
| Generate.GenerateDeployment | pkg/provider/providers/azure/azure.go:345-432 | The name is `<lb name>-provider-azure-<suffix>`. Object, selector and pod-template labels all equal the selector, so they are not filtered. Replicas is 1 and the strategy is Recreate. There is exactly one owner reference, to the LoadBalancer's name and UID, with controller and blockOwnerDeletion set. There is exactly one container, named azure, with the configured image and the environment variables POD_NAME and POD_NAMESPACE (from pod metadata) and LOADBALANCER_NAMESPACE and LOADBALANCER_NAME (the LoadBalancer's namespace and name). |
| Ensure.PatchedMerges | pkg/provider/providers/azure/azure.go:292-301 | The patched copy's labels are the old labels with every desired key overwritten and every other key kept. Replicas and the first image are the desired ones. Every other field, and every other container, is the old Deployment's. |
| Ensure.Patched | pkg/provider/providers/azure/azure.go:292-301 | The patched copy is well formed and keeps the old name; its full content is stated by `Ensure.PatchedMerges`. |
| Ensure.Differs | pkg/provider/providers/azure/azure.go:304-308 | Definition, no contract: labels, replicas or first image differ between copy and old. Its meaning is stated by `Ensure.DiffersIff`. |
| Ensure.DiffersIff | pkg/provider/providers/azure/azure.go:304-308 | `changed` holds exactly when the old Deployment disagrees with the desired one on a desired label, on replicas or on the image. When it does not hold, the copy equals the old Deployment. |
| Ensure.PatchedAgrees | pkg/provider/providers/azure/azure.go:295-301 | The patched copy carries every desired label, the desired replicas and the desired image. |
| Ensure.PatchedIdempotent | pkg/provider/providers/azure/azure.go:291-319 | Patching the patched copy again with the same desired Deployment returns it unchanged and reports no change. |
| Ensure.PatchedReadsOnlyForcedFields | pkg/provider/providers/azure/azure.go:295-301 | The copy depends on the desired Deployment only through its labels, replicas and first image. |
| Ensure.PatchedSelf | pkg/provider/providers/azure/azure.go:291-319 | A Deployment patched towards itself is unchanged, and no change is reported. |
| Azure.Provider.EnsureDeployment | pkg/provider/providers/azure/azure.go:291-319 | The label-copying loop and the field writes yield exactly `Patched(desired, current)`. `changed` is the labels/replicas/image comparison of copy and old, and holds exactly when the old one does not already agree with the desired one. |
| Plan.Canonical | pkg/provider/providers/azure/azure.go:243-261 | Returns the index of the first Deployment whose name carries the prefix; no earlier one carries it. Returns None exactly when no Deployment carries it. |
| Plan.CanonicalByNames | pkg/provider/providers/azure/azure.go:248 | The canonical choice depends on the Deployments' names only. |
| Plan.CanonicalAppend | pkg/provider/providers/azure/azure.go:278-286 | When no Deployment is canonical, a created Deployment whose name carries the prefix becomes the canonical one once it is claimed after them. |
| Plan.CanonicalAt | pkg/provider/providers/azure/azure.go:248-261 | While `updated` is false, the current Deployment is the canonical one exactly when its name carries the prefix. |
| Plan.ActionFor | pkg/provider/providers/azure/azure.go:248-275 | The call made for one Deployment is always an Update in the LoadBalancer's namespace, and it carries that Deployment's name. |
| Plan.PassOutcome | pkg/provider/providers/azure/azure.go:243-288 | Definition, no contract: the calls and error of a pass given its per-Deployment calls and canonical index; a failing canonical call ends it, otherwise a Create follows when nothing is canonical. Stated by the Sync lemmas below. |
| Plan.SyncOutcome | pkg/provider/providers/azure/azure.go:237-289 | Definition, no contract: the calls and error of one sync pass. The lemmas `Plan.SyncCreatesIffNoCanonical` to `Plan.ReorderedSecondPassFlipFlops` state what it amounts to, and `Azure.Provider.Sync` is proved to produce it. |
| Plan.SyncCreatesIffNoCanonical | pkg/provider/providers/azure/azure.go:248-286 | A pass creates exactly the desired Deployment, once, when no claimed Deployment carries the prefix, and creates nothing otherwise. Every call is an Update or a Create in the LoadBalancer's namespace. |
| Plan.SyncScalesDownOthers | pkg/provider/providers/azure/azure.go:248-258 | Every non-canonical Deployment gets exactly one Update to zero replicas, unless it is at zero already. This includes later Deployments with the prefix. The exception is a Deployment after a failing canonical Update, which gets none. |
| Plan.SyncPatchesCanonical | pkg/provider/providers/azure/azure.go:261-275 | The canonical Deployment gets no Update when the LoadBalancer is static or already agrees. Otherwise it gets exactly one Update, carrying the patched copy. |
| Plan.SyncAbortEndsWithCanonical | pkg/provider/providers/azure/azure.go:270-273 | A failing canonical Update is the last call of its pass. |
| Plan.SyncAbortReturnsError | pkg/provider/providers/azure/azure.go:270-273 | The error of an aborted pass is the answer to its last call, the canonical Update. |
| Plan.SyncAbortStopsPass | pkg/provider/providers/azure/azure.go:270-273 | After a failing canonical Update, no later Deployment is scaled down and nothing is created. |
| Plan.SyncErrorSources | pkg/provider/providers/azure/azure.go:270-288 | Any error of a pass is the answer to its last call. With no canonical Deployment that call is the Create of the desired Deployment, so a failing Create is returned (282-285). With a canonical one, a pass not cut short by its Update returns no error (288). |
| Plan.SyncIgnoresScaleDownAnswers | pkg/provider/providers/azure/azure.go:257 | When the desired replicas are nonzero (the generated Deployment has 1), two APIs that answer every call alike, except scale-to-zero Updates, give the same calls and the same error. |
| Plan.AfterIsCallEffect | pkg/provider/providers/azure/azure.go:248-275 | The state each Deployment is left in equals what the call made for it sends, or the Deployment itself when no call is made. |
| Plan.AtRestOneActive | pkg/provider/providers/azure/azure.go:237-289 | After a pass whose calls succeed, exactly one Deployment is canonical: the old canonical one, or else the created one. Every other Deployment, prefixed or not, has zero replicas. Unless static, the canonical one agrees with the desired Deployment. |
| Plan.SecondPassQuiet | pkg/provider/providers/azure/azure.go:237-289 | A second pass over the state a successful pass left, listed in the same order, makes no call and returns no error, even with a freshly generated desired Deployment (another random suffix). In particular there is no second Create. |
| Plan.SecondPassQuietAnyOrder | pkg/provider/providers/azure/azure.go:243-288 | When only one of the Deployments a successful pass left carries the prefix, a second pass over them in any listing order makes no call and returns no error. |
| Plan.ReorderedSecondPassFlipFlops | pkg/provider/providers/azure/azure.go:243-275 | Two prefixed Deployments that both agree with the desired one: a pass over [a, b] leaves a and scales b to zero. A pass over them in the other order takes the idle b as canonical (248) and patches it back up (270). Unless that call fails, it then scales a to zero (249-257), so the source is not idempotent across listing orders. |
| Azure.Provider.SyncOne | pkg/provider/providers/azure/azure.go:244-275 | One loop turn emits exactly the pass's call for the i-th Deployment. It sets `updated` exactly at the canonical one. It returns an error only when the canonical Update fails, and that error is the pass's. |
| Azure.Provider.SyncLoop | pkg/provider/providers/azure/azure.go:243-276 | The loop makes the pass's calls in order, stopping after a failing canonical Update. It returns that Update's error, and otherwise reports whether a canonical Deployment was found. |
| Azure.Provider.Sync | pkg/provider/providers/azure/azure.go:237-289 | The calls appended to the trace, and the error returned, are exactly `SyncOutcome` for the generated desired Deployment. |
| Azure.Provider.Call | pkg/provider/providers/azure/azure.go:257-282 | One call against the cluster's mutation API: the call is appended to the trace and its answer is the API's answer to the call with that index. The same call carries the Deletes at line 332 and the status clear at line 339. |
| Plan.CleanupDeletesAll | pkg/provider/providers/azure/azure.go:322-343 | A claim error is returned before any call. Otherwise every claimed Deployment is deleted, in its own namespace, and nothing else is deleted. The status is cleared exactly when asked. Delete answers are ignored: an error can only be the status call's answer. |
| Plan.CleanupErrorSources | pkg/provider/providers/azure/azure.go:322-343 | A cleanup's error is either the claim error, with no call, or the answer to its last call, the status clear. |
| Azure.Provider.Cleanup | pkg/provider/providers/azure/azure.go:322-343 | The calls appended and the error returned are exactly `CleanupOutcome`. |
| Plan.CleanupOutcome | pkg/provider/providers/azure/azure.go:322-343 | Definition, no contract: the calls and error of a cleanup. Stated by `Plan.CleanupDeletesAll` and `Plan.CleanupErrorSources`; `Azure.Provider.Cleanup` is proved to produce it. |
| Plan.DispatchGuards | pkg/provider/providers/azure/azure.go:152-204 | An Update or Create call happens only for a valid, same-UID LoadBalancer that asks for azure and is not being deleted, after a successful claim. |
| Plan.DispatchDeleteGuards | pkg/provider/providers/azure/azure.go:171-191 | A Delete or status clear happens only after a successful claim for a valid LoadBalancer that is gone, or live with the same UID and no longer asking for azure. |
| Plan.DispatchClearsStatusIff | pkg/provider/providers/azure/azure.go:188-191 | The status is cleared exactly when the LoadBalancer is valid, the live one has the same UID and no longer asks for azure, and the claim succeeded. |
| Plan.DispatchCleanupDeletes | pkg/provider/providers/azure/azure.go:171-191 | Conversely, a valid LoadBalancer that is gone, or live with the same UID and no longer asking for azure, gets a Delete for every claimed Deployment once the claim succeeds. |
| Plan.DispatchEarlyReturns | pkg/provider/providers/azure/azure.go:159-201 | The early returns make no call: the validation error (159-161), a store error other than not-found (177-180) and a claim error (193-195) are returned as they are; a stale UID (183-185) and a LoadBalancer being deleted (198-201) give no error. |
| Plan.DispatchErrorSources | pkg/provider/providers/azure/azure.go:152-204 | Every error returned either comes with no call and is the validation, store or claim error, or is the answer to the last call made (a canonical Update, the Create, or the status clear). |
| Plan.DispatchOutcome | pkg/provider/providers/azure/azure.go:152-204 | Definition, no contract: the calls and error of one reconciliation, by the source's early-return order. Stated by `Plan.DispatchGuards` to `Plan.DispatchErrorSources`; `Azure.Provider.SyncLoadBalancer` is proved to produce it. |
| Azure.Provider.SyncLoadBalancer | pkg/provider/providers/azure/azure.go:152-204 | The steps run in the source's order: validation, store lookup (cleanup without status on not-found, return on any other error), UID check, azure check (cleanup with status), claim error, deletion timestamp, sync. Calls and error are exactly `DispatchOutcome`. |
| Azure.Recheck | pkg/provider/providers/azure/azure.go:219-230 | Succeeds exactly when the quorum read succeeds with the same UID, and returns that LoadBalancer. A read error is passed on. A different UID gives the "gone" error carrying namespace, name, got UID and wanted UID. |

## Left out

- `Init`, `Run` and `OnSync`, and the work queue they wire up, are left out. They are informer/lister wiring, a worker goroutine and shutdown handling, not reconciliation logic. The `initialized` guard of `Init` is left out with them.
- The claim algorithm and the listing by selector (azure.go:206-233, apart from the recheck closure) are left out. The claimed Deployments are an arbitrary input, `Cluster.claimed`. The ref manager's code is not part of this model, and the writes it makes to adopt or release Deployments (it is handed the client, azure.go:232) are not in the trace, on the sync path and on both cleanup paths alike. `Azure.Recheck` models the quorum-read closure only; the `RecheckDeletionTimestamp` wrapper around it, and its own checks, are library code that is not part of this model, and the closure is not wired into a claim.
- `ValidateLoadBalancer`, `IsStatic`, the created-by value format and the API's answers are arbitrary functions in `Env`. The random five-letter name suffix is a parameter. The code of these collaborators is not part of this model.
- `deleteStatus` is one `DeleteStatus` call whose answer is returned. Its code is not part of this model.
- The label keys `created-by` and `provider` stand for the `lbapi` constants, whose definitions are not part of this model.
- The generated Deployment's tolerations, resource requests and limits, termination grace period, pull policy and owner-reference apiVersion/kind are constant data. They are not read by any modelled decision and are omitted. The Delete options (foreground propagation, 30 s grace period) are noted on the `Delete` action but not modelled.
- The type assertion at azure.go:153 is not modelled: the model's input is already a LoadBalancer. Logging and timing are not modelled either.
- Go nil-pointer and index panics are not modelled: `*Spec.Replicas`, `Containers[0]`, and writing into a nil label map. Every Deployment is required to have at least one container (`WellFormed`), and replicas are always present.
- Replicas are an unbounded `int` rather than `int32`. No arithmetic is done on them, so no wrap-around can arise.
- The error branch after `ensureDeployment` (azure.go:265-267) is not modelled. `ensureDeployment` always returns a nil error, so that branch is dead, and `EnsureDeployment` returns only the copy and the flag.
- `ensureDeployment` leaving its input unchanged needs no statement here, because Dafny values are immutable.
- Plan.AtRestOneActive: the state after a pass assumes every call succeeded and the created Deployment is claimed after the existing ones. Listing order is up to the lister.
- Plan.SecondPassQuiet: stated only for a second pass that lists the Deployments in the order `AtRest` gives them: the first pass's order, with the created one last. The lister's order is not promised. In any order the second pass is quiet only while one claimed Deployment carries the prefix (`Plan.SecondPassQuietAnyOrder`). With two or more, the duplicates are only scaled to zero and never deleted. A reordered listing then makes the source patch the idle duplicate back up and scale the active one down, pass after pass (`Plan.ReorderedSecondPassFlipFlops`). Changes other controllers make between the passes are not modelled either.

The model follows the code as written in three places where a reader might expect otherwise:

- The answer to a scale-to-zero Update is discarded without being logged (azure.go:257).
- `cleanup` ignores every delete error, not only "not found" (azure.go:332-335).
- A failing canonical Update ends the pass at once (azure.go:270-273). Duplicates later in the list are not scaled down on that pass.

=== FILE: api.dfy ===
/**
 * The records the azure provider reads and writes: the LoadBalancer custom
 * resource, the Deployment that runs the provider's agent, the calls it makes
 * against the cluster's mutation API, and the errors it can see.
 * Only the fields the reconciliation reads or writes are kept.
 */
module Api {
  import opened Wrappers

  /** The errors the controller distinguishes. */
  datatype Error =
    | NotFound
      // what `errors.IsNotFound` recognises
    | Gone(namespace: string, name: string, got: string, wanted: string)
      // the live LoadBalancer has another UID than the one being reconciled
    | Failed(reason: string)
      // any other error a collaborator returns

  /** The owning resource, as seen by this provider. */
  datatype LoadBalancer = LoadBalancer(
    namespace: string,
    name: string,
    uid: string,
    azureRequested: bool,               // Spec.Providers.Azure != nil
    deletionTimestamp: Option<int>)     // ObjectMeta.DeletionTimestamp

  /** A back-reference from a Deployment to the LoadBalancer that owns it. */
  datatype OwnerReference = OwnerReference(
    name: string,
    uid: string,
    controller: bool,
    blockOwnerDeletion: bool)

  /** An environment variable of the agent container. */
  datatype EnvVar =
    | FieldRef(name: string, fieldPath: string)   // filled from the pod's own metadata
    | Literal(name: string, value: string)

  datatype Container = Container(name: string, image: string, env: seq<EnvVar>)

  datatype Strategy = Recreate | RollingUpdate

  /** A managed Deployment. `replicas` is the value `Spec.Replicas` points to. */
  datatype Deployment = Deployment(
    namespace: string,
    name: string,
    labels: map<string, string>,
    ownerReferences: seq<OwnerReference>,
    replicas: int,
    strategy: Strategy,
    matchLabels: map<string, string>,     // Spec.Selector.MatchLabels
    podLabels: map<string, string>,       // Spec.Template.ObjectMeta.Labels
    containers: seq<Container>)           // Spec.Template.Spec.Containers

  /** The controller dereferences `Containers[0]`; every Deployment it patches has one. */
  predicate WellFormed(d: Deployment) {
    |d.containers| > 0
  }

  predicate AllWellFormed(ds: seq<Deployment>) {
    forall i :: 0 <= i < |ds| ==> WellFormed(ds[i])
  }

  /** One call against the cluster's mutation API. */
  datatype Action =
    | Update(namespace: string, deployment: Deployment)
    | Create(namespace: string, deployment: Deployment)
    | Delete(namespace: string, name: string)          // foreground propagation, 30s grace period
    | DeleteStatus(namespace: string, name: string)    // clears the provider's status on the LoadBalancer

  /**
   * The provider's configuration and the collaborators whose code is not part
   * of this model: the configured image, the created-by label value format,
   * the LoadBalancer validation, the static-LoadBalancer test, and the answer
   * the cluster's mutation API gives to the n-th call of the provider.
   */
  datatype Env = Env(
    image: string,
    createdBy: (string, string) -> string,
    validate: LoadBalancer -> Option<Error>,
    isStatic: LoadBalancer -> bool,
    respond: (nat, Action) -> Option<Error>)

  /**
   * What one reconciliation pass reads from the cluster: the lister's answer
   * for the LoadBalancer's key and the Deployments the ref manager claims.
   */
  datatype Cluster = Cluster(
    stored: Result<LoadBalancer, Error>,
    claimed: Result<seq<Deployment>, Error>)
}

=== FILE: azure.dfy ===
/**
 * The azure provider's controller object. Every write it makes against the
 * cluster goes through `Call`, which records the call in `trace` and hands
 * back the API's answer. SyncLoadBalancer, Sync (with its loop SyncLoop and
 * loop body SyncOne) and Cleanup are proved to append exactly the calls, and
 * to return exactly the error, that the functions of module Plan prescribe;
 * EnsureDeployment makes no call and is proved to compute `Ensure.Patched`
 * and its change test.
 */
module Azure {
  import opened Wrappers
  import opened Api
  import opened Generate
  import opened Ensure
  import opened Plan

  /**
   * The quorum-read closure passed to RecheckDeletionTimestamp before the ref
   * manager adopts a Deployment: a failing quorum read is passed on, a
   * LoadBalancer with another UID is reported gone, and the same LoadBalancer
   * is handed back as it was read.
   */
  function Recheck(lb: LoadBalancer, live: Result<LoadBalancer, Error>): (r: Result<LoadBalancer, Error>)
    ensures r.Success? <==> live.Success? && live.value.uid == lb.uid
    ensures r.Success? ==> r.value == live.value
    ensures live.Failure? ==> r.error == live.error
    ensures live.Success? && live.value.uid != lb.uid ==>
              r.error == Gone(lb.namespace, lb.name, live.value.uid, lb.uid)
  {
    match live
    case Failure(e) => Failure(e)
    case Success(l) =>
      if l.uid != lb.uid then Failure(Gone(lb.namespace, lb.name, l.uid, lb.uid))
      else Success(l)
  }

  class Provider {
    /** Configuration and collaborators, fixed for the provider's lifetime. */
    const env: Env
    /** Every call made against the cluster's mutation API so far, in order. */
    var trace: seq<Action>

    constructor(env: Env)
      ensures this.env == env && trace == []
    {
      this.env := env;
      trace := [];
    }

    /** One call against the cluster's mutation API; its answer is the API's to give. */
    method Call(a: Action) returns (err: Option<Error>)
      modifies this
      ensures trace == old(trace) + [a]
      ensures err == env.respond(|old(trace)|, a)
    {
      err := env.respond(|trace|, a);
      trace := trace + [a];
    }

    /**
     * ensureDeployment: copy current, write every desired label into the
     * copy's labels, force the desired replica count and first image, and
     * report whether labels, replica count or image changed.
     */
    method EnsureDeployment(desired: Deployment, current: Deployment) returns (copy: Deployment, changed: bool)
      requires WellFormed(desired) && WellFormed(current)
      ensures copy == Patched(desired, current)
      ensures changed == Differs(current, copy)
      ensures changed <==> !Agrees(desired, current)
    {
      var labels := current.labels;
      var todo := desired.labels.Keys;
      while todo != {}
        invariant todo <= desired.labels.Keys
        invariant labels.Keys == current.labels.Keys + (desired.labels.Keys - todo)
        invariant forall k :: k in labels ==>
                    labels[k] == if k in desired.labels && k !in todo then desired.labels[k] else current.labels[k]
        decreases todo
      {
        var k :| k in todo;
        labels := labels[k := desired.labels[k]];
        todo := todo - {k};
      }
      assert labels == current.labels + desired.labels;
      var c := current.containers[0].(image := Image(desired));
      copy := current.(labels := labels, replicas := desired.replicas, containers := current.containers[0 := c]);
      var imageChanged := Image(copy) != Image(current);
      var labelChanged := copy.labels != current.labels;
      var replicasChanged := copy.replicas != current.replicas;
      changed := labelChanged || replicasChanged || imageChanged;
      DiffersIff(desired, current);
    }

    /**
     * sync: walk the claimed Deployments in order, patch the first one whose
     * name carries the canonical prefix, scale every other one to zero, and
     * create the desired Deployment when none carried the prefix.
     */
    method Sync(lb: LoadBalancer, dps: seq<Deployment>, suffix: string) returns (err: Option<Error>)
      requires AllWellFormed(dps)
      modifies this
      ensures var o := SyncOutcome(env, |old(trace)|, lb, dps, CanonicalPrefix(lb.name),
                                   GenerateDeployment(lb, env.image, env.createdBy, suffix));
              trace == old(trace) + o.actions && err == o.err
    {
      var desired := GenerateDeployment(lb, env.image, env.createdBy, suffix);
      var prefix := CanonicalPrefix(lb.name);
      ghost var base := |trace|;
      ghost var canon := Canonical(dps, prefix);
      ghost var calls := Calls(lb.namespace, dps, canon, desired, env.isStatic(lb));
      assert SyncOutcome(env, base, lb, dps, prefix, desired) ==
             PassOutcome(env.respond, base, lb.namespace, calls, canon, desired);
      var updated;
      updated, err := SyncLoop(lb, dps, prefix, desired, canon, calls);
      if err.Some? {
        PassAborted(env.respond, base, lb.namespace, calls, canon, desired);
        return;
      }
      PassCompleted(env.respond, base, lb.namespace, calls, canon, desired);
      if !updated {
        err := Call(Create(lb.namespace, desired));
        if err.Some? {
          return;
        }
      }
      return None;
    }

    /**
     * sync's loop over the claimed Deployments: it makes the calls of the
     * pass in order and stops after a failing canonical Update, whose error it
     * returns; it reports whether a canonical Deployment was found.
     */
    method SyncLoop(lb: LoadBalancer, dps: seq<Deployment>, prefix: string, desired: Deployment,
                    ghost canon: Option<nat>, ghost calls: seq<Option<Action>>)
      returns (updated: bool, err: Option<Error>)
      requires AllWellFormed(dps) && WellFormed(desired)
      requires canon == Canonical(dps, prefix)
      requires calls == Calls(lb.namespace, dps, canon, desired, env.isStatic(lb))
      modifies this
      ensures err == CanonicalFailure(env.respond, |old(trace)|, calls, canon)
      ensures err.Some? ==> trace == old(trace) + Flatten(calls[..canon.value + 1])
      ensures err.None? ==> trace == old(trace) + Flatten(calls) && (updated <==> canon.Some?)
    {
      ghost var prior := trace;
      updated := false;
      err := None;
      var i := 0;
      while i < |dps|
        invariant 0 <= i <= |dps|
        invariant updated <==> canon.Some? && canon.value < i
        invariant trace == prior + Flatten(calls[..i])
        invariant canon.Some? && canon.value < i ==> CanonicalFailure(env.respond, |prior|, calls, canon).None?
        invariant err.None?
      {
        updated, err := SyncOne(lb, dps, i, prefix, desired, updated, prior, canon, calls);
        if err.Some? {
          return;
        }
        i := i + 1;
      }
      assert calls[..i] == calls;
    }

    /**
     * One turn of sync's loop, for the i-th claimed Deployment: scale it to
     * zero when it lacks the prefix or the canonical one came earlier,
     * otherwise mark the canonical one as found and patch it unless the
     * LoadBalancer is static. Only the canonical Update's answer is kept.
     * The ghost parameters name the calls made before the pass, the
     * canonical index and the calls of the whole pass, which the turn is
     * proved to follow.
     */
    method SyncOne(lb: LoadBalancer, dps: seq<Deployment>, i: nat, prefix: string, desired: Deployment,
                   updated: bool, ghost prior: seq<Action>, ghost canon: Option<nat>,
                   ghost calls: seq<Option<Action>>)
      returns (nowUpdated: bool, err: Option<Error>)
      requires i < |dps| && AllWellFormed(dps) && WellFormed(desired)
      requires canon == Canonical(dps, prefix)
      requires calls == Calls(lb.namespace, dps, canon, desired, env.isStatic(lb))
      requires updated <==> canon.Some? && canon.value < i
      requires trace == prior + Flatten(calls[..i])
      requires canon.Some? && canon.value < i ==> CanonicalFailure(env.respond, |prior|, calls, canon).None?
      modifies this
      ensures trace == prior + Flatten(calls[..i + 1])
      ensures err.Some? ==> canon == Some(i) && err == CanonicalFailure(env.respond, |prior|, calls, canon)
      ensures err.None? ==> (nowUpdated <==> canon.Some? && canon.value <= i)
      ensures err.None? && canon.Some? && canon.value <= i ==> CanonicalFailure(env.respond, |prior|, calls, canon).None?
    {
      var dp := dps[i];
      if !updated {
        CanonicalAt(dps, prefix, i);
      }
      nowUpdated := updated;
      err := None;
      if !(prefix <= dp.name) || updated {
        ActionForOther(lb.namespace, dps, i, canon, desired, env.isStatic(lb));
        if dp.replicas != 0 {
          var _ := Call(Update(lb.namespace, dp.(replicas := 0)));
        }
      } else {
        ActionForCanonical(lb.namespace, dps, i, desired, env.isStatic(lb));
        nowUpdated := true;
        if !env.isStatic(lb) {
          var copyDp, changed := EnsureDeployment(desired, dp);
          if changed {
            err := Call(Update(lb.namespace, copyDp));
          }
        }
      }
      PassStep(env.respond, prior, calls, canon, i, old(trace), trace, err);
    }

    /**
     * cleanup: return a failing claim; otherwise delete every claimed
     * Deployment, ignoring the answers, and clear the LoadBalancer's status
     * when asked, returning that call's answer.
     */
    method Cleanup(lb: LoadBalancer, claimed: Result<seq<Deployment>, Error>, deleteStatus: bool)
      returns (err: Option<Error>)
      modifies this
      ensures var o := CleanupOutcome(env.respond, |old(trace)|, lb, claimed, deleteStatus);
              trace == old(trace) + o.actions && err == o.err
    {
      if claimed.Failure? {
        return Some(claimed.error);
      }
      var ds := claimed.value;
      var i := 0;
      while i < |ds|
        invariant 0 <= i <= |ds|
        invariant trace == old(trace) + Deletes(ds[..i])
      {
        var _ := Call(Delete(ds[i].namespace, ds[i].name));
        assert Deletes(ds[..i + 1]) == Deletes(ds[..i]) + [Delete(ds[i].namespace, ds[i].name)];
        i := i + 1;
      }
      assert ds[..i] == ds;
      if deleteStatus {
        err := Call(DeleteStatus(lb.namespace, lb.name));
        return;
      }
      return None;
    }

    /**
     * syncLoadBalancer: validate lb, look it up, give up on a stale UID,
     * clean up when it is gone or no longer asks for azure, return a claim
     * error, wait while it is being deleted, and sync otherwise.
     */
    method SyncLoadBalancer(lb: LoadBalancer, view: Cluster, suffix: string) returns (err: Option<Error>)
      requires view.claimed.Success? ==> AllWellFormed(view.claimed.value)
      modifies this
      ensures var o := DispatchOutcome(env, |old(trace)|, lb, view, suffix);
              trace == old(trace) + o.actions && err == o.err
    {
      var invalid := env.validate(lb);
      if invalid.Some? {
        return invalid;
      }
      if view.stored.Failure? {
        if view.stored.error.NotFound? {
          err := Cleanup(lb, view.claimed, false);
          return;
        }
        return Some(view.stored.error);
      }
      var live := view.stored.value;
      if lb.uid != live.uid {
        return None;
      }
      if !live.azureRequested {
        err := Cleanup(live, view.claimed, true);
        return;
      }
      if view.claimed.Failure? {
        return Some(view.claimed.error);
      }
      if live.deletionTimestamp.Some? {
        return None;
      }
      err := Sync(live, view.claimed.value, suffix);
    }
  }
}

=== FILE: ensure.dfy ===
/**
 * What ensureDeployment computes: a copy of the current Deployment with the
 * desired labels merged in and the desired replica count and image forced,
 * and whether that copy differs from the current one.
 */
module Ensure {
  import opened Api
  import opened Generate

  function Image(d: Deployment): string
    requires WellFormed(d)
  {
    d.containers[0].image
  }

  /** The patched copy of `current` towards `desired`. */
  function Patched(desired: Deployment, current: Deployment): (r: Deployment)
    requires WellFormed(desired) && WellFormed(current)
    ensures WellFormed(r) && r.name == current.name
  {
    var c := current.containers[0].(image := Image(desired));
    current.(labels := current.labels + desired.labels,
             replicas := desired.replicas,
             containers := current.containers[0 := c])
  }

  /**
   * The patched copy carries the current labels with every desired key
   * overwritten and every other key kept, the desired replica count and the
   * desired first image; every other field is the current Deployment's.
   */
  lemma PatchedMerges(desired: Deployment, current: Deployment)
    requires WellFormed(desired) && WellFormed(current)
    ensures var r := Patched(desired, current);
            && r.labels.Keys == current.labels.Keys + desired.labels.Keys
            && (forall k :: k in desired.labels ==> r.labels[k] == desired.labels[k])
            && (forall k :: k in current.labels && k !in desired.labels ==> r.labels[k] == current.labels[k])
            && r.replicas == desired.replicas
            && Image(r) == Image(desired)
            && r.(labels := current.labels, replicas := current.replicas, containers := current.containers) == current
            && |r.containers| == |current.containers|
            && r.containers[0].(image := Image(current)) == current.containers[0]
            && (forall i :: 0 < i < |r.containers| ==> r.containers[i] == current.containers[i])
  {
  }

  /** ensureDeployment's change test: labels, replica count or first image differ. */
  predicate Differs(current: Deployment, copy: Deployment)
    requires WellFormed(current) && WellFormed(copy)
  {
    copy.labels != current.labels || copy.replicas != current.replicas || Image(copy) != Image(current)
  }

  /** `current` already agrees with `desired` on every field ensureDeployment forces. */
  predicate Agrees(desired: Deployment, current: Deployment)
    requires WellFormed(desired) && WellFormed(current)
  {
    && Matches(desired.labels, current.labels)
    && current.replicas == desired.replicas
    && Image(current) == Image(desired)
  }

  /**
   * The patch reports a change exactly when `current` disagrees with `desired`
   * on a desired label, the replica count or the image; when it reports none,
   * the copy is `current` itself.
   */
  lemma DiffersIff(desired: Deployment, current: Deployment)
    requires WellFormed(desired) && WellFormed(current)
    ensures Differs(current, Patched(desired, current)) <==> !Agrees(desired, current)
    ensures !Differs(current, Patched(desired, current)) ==> Patched(desired, current) == current
  {
    var r := Patched(desired, current);
    if Agrees(desired, current) {
      assert r.labels == current.labels;
      assert r.containers == current.containers;
      assert r == current;
    }
  }

  /** The patched copy agrees with the desired Deployment. */
  lemma PatchedAgrees(desired: Deployment, current: Deployment)
    requires WellFormed(desired) && WellFormed(current)
    ensures Agrees(desired, Patched(desired, current))
  {
    var r := Patched(desired, current);
    forall k | k in desired.labels
      ensures k in r.labels && r.labels[k] == desired.labels[k]
    {
    }
  }

  /** Patching twice with the same desired Deployment changes nothing the second time. */
  lemma PatchedIdempotent(desired: Deployment, current: Deployment)
    requires WellFormed(desired) && WellFormed(current)
    ensures Patched(desired, Patched(desired, current)) == Patched(desired, current)
    ensures !Differs(Patched(desired, current), Patched(desired, Patched(desired, current)))
  {
    var r := Patched(desired, current);
    PatchedAgrees(desired, current);
    DiffersIff(desired, r);
  }

  /** The patch reads only the labels, replica count and image of the desired Deployment. */
  lemma PatchedReadsOnlyForcedFields(desired1: Deployment, desired2: Deployment, current: Deployment)
    requires WellFormed(desired1) && WellFormed(desired2) && WellFormed(current)
    requires desired1.labels == desired2.labels && desired1.replicas == desired2.replicas
    requires Image(desired1) == Image(desired2)
    ensures Patched(desired1, current) == Patched(desired2, current)
  {
  }

  /** A Deployment patched towards itself is unchanged. */
  lemma PatchedSelf(d: Deployment)
    requires WellFormed(d)
    ensures Patched(d, d) == d && !Differs(d, Patched(d, d))
  {
    assert Agrees(d, d);
    DiffersIff(d, d);
  }
}

=== FILE: generate.dfy ===
/**
 * The pure part of the azure provider: the label selector of a LoadBalancer's
 * Deployments, the event filter, and the desired Deployment.
 */
module Generate {
  import opened Api

  const ProviderName := "azure"
  const ProviderNameSuffix := "-provider-azure"

  // The two label keys of the lbapi package.
  const LabelKeyCreatedBy := "created-by"
  const LabelKeyProvider := "provider"

  /** Every name sync treats as canonical for a LoadBalancer called lbName starts with this. */
  function CanonicalPrefix(lbName: string): string {
    lbName + ProviderNameSuffix
  }

  /**
   * The labels that mark a Deployment as this provider's, created for lb.
   * `createdBy` is the created-by value format applied to namespace and name.
   */
  function Selector(lb: LoadBalancer, createdBy: (string, string) -> string): (s: map<string, string>)
    ensures s.Keys == {LabelKeyCreatedBy, LabelKeyProvider}
    ensures s[LabelKeyProvider] == ProviderName
    ensures s[LabelKeyCreatedBy] == createdBy(lb.namespace, lb.name)
  {
    map[LabelKeyCreatedBy := createdBy(lb.namespace, lb.name), LabelKeyProvider := ProviderName]
  }

  /** A label set satisfies an equality-based selector when it carries every pair of it. */
  predicate Matches(selector: map<string, string>, labels: map<string, string>) {
    forall k :: k in selector ==> k in labels && labels[k] == selector[k]
  }

  /** True when the Deployment event handler must ignore an object with these labels. */
  predicate FilteredByLabel(labels: map<string, string>) {
    !Matches(map[LabelKeyProvider := ProviderName], labels)
  }

  /** A Deployment is ignored exactly when it does not carry provider=azure. */
  lemma FilteredByLabelIff(labels: map<string, string>)
    ensures FilteredByLabel(labels) <==>
              !(LabelKeyProvider in labels && labels[LabelKeyProvider] == ProviderName)
  {
    if !FilteredByLabel(labels) {
      assert LabelKeyProvider in map[LabelKeyProvider := ProviderName];
    }
  }

  /** Any Deployment listed by a LoadBalancer's selector passes the event filter. */
  lemma SelectedNeverFiltered(lb: LoadBalancer, createdBy: (string, string) -> string, labels: map<string, string>)
    requires Matches(Selector(lb, createdBy), labels)
    ensures !FilteredByLabel(labels)
  {
    assert LabelKeyProvider in Selector(lb, createdBy);
  }

  /**
   * The Deployment the provider wants for lb. `image` is the provider-wide
   * configured image; `suffix` is the random five-letter name suffix.
   */
  function GenerateDeployment(lb: LoadBalancer, image: string, createdBy: (string, string) -> string,
                              suffix: string): (d: Deployment)
    ensures CanonicalPrefix(lb.name) <= d.name
    ensures d.name == CanonicalPrefix(lb.name) + "-" + suffix
    ensures d.labels == Selector(lb, createdBy)
    ensures d.matchLabels == d.labels && d.podLabels == d.labels
    ensures Matches(d.matchLabels, d.podLabels)
    ensures !FilteredByLabel(d.labels)
    ensures d.replicas == 1
    ensures |d.ownerReferences| == 1
    ensures d.ownerReferences[0].uid == lb.uid && d.ownerReferences[0].name == lb.name
    ensures d.ownerReferences[0].controller && d.ownerReferences[0].blockOwnerDeletion
    ensures d.strategy == Recreate
    ensures WellFormed(d) && |d.containers| == 1 && d.containers[0].image == image
    ensures d.containers[0].name == ProviderName
    ensures var env := d.containers[0].env;
            && |env| == 4
            && env[0] == FieldRef("POD_NAME", "metadata.name")
            && env[1] == FieldRef("POD_NAMESPACE", "metadata.namespace")
            && env[2] == Literal("LOADBALANCER_NAMESPACE", lb.namespace)
            && env[3] == Literal("LOADBALANCER_NAME", lb.name)
  {
    var labels := Selector(lb, createdBy);
    var d := Deployment(
      "",
      lb.name + ProviderNameSuffix + "-" + suffix,
      labels,
      [OwnerReference(lb.name, lb.uid, true, true)],
      1,
      Recreate,
      labels,
      labels,
      [Container(ProviderName, image,
                 [FieldRef("POD_NAME", "metadata.name"),
                  FieldRef("POD_NAMESPACE", "metadata.namespace"),
                  Literal("LOADBALANCER_NAMESPACE", lb.namespace),
                  Literal("LOADBALANCER_NAME", lb.name)])]);
    assert CanonicalPrefix(lb.name) <= d.name by {
      assert d.name == CanonicalPrefix(lb.name) + ("-" + suffix);
    }
    SelectedNeverFiltered(lb, createdBy, labels);
    d
  }
}

=== FILE: plan.dfy ===
/**
 * The calls one reconciliation pass makes, stated as functions of its inputs:
 * which claimed Deployment is canonical, what each claimed Deployment gets,
 * when a Deployment is created, what cleanup deletes, and which branch of the
 * dispatcher runs. The methods of the Provider class are proved to emit
 * exactly these calls; the lemmas here state what the calls amount to.
 */
module Plan {
  import opened Wrappers
  import opened Api
  import opened Generate
  import opened Ensure

  /** The calls a pass made, in order, and the error it returned. */
  datatype Outcome = Outcome(actions: seq<Action>, err: Option<Error>)

  /** Claimed Deployments live in one namespace, so their names are distinct. */
  predicate DistinctNames(dps: seq<Deployment>) {
    forall i, j :: 0 <= i < j < |dps| ==> dps[i].name != dps[j].name
  }

  // ---------------------------------------------------------------------------
  // sync

  /** The index of the first Deployment whose name starts with prefix, if any. */
  function Canonical(dps: seq<Deployment>, prefix: string): (r: Option<nat>)
    ensures r.Some? ==> r.value < |dps| && prefix <= dps[r.value].name
    ensures r.Some? ==> forall j :: 0 <= j < r.value ==> !(prefix <= dps[j].name)
    ensures r.None? ==> forall j :: 0 <= j < |dps| ==> !(prefix <= dps[j].name)
  {
    if |dps| == 0 then None
    else if prefix <= dps[0].name then Some(0)
    else match Canonical(dps[1..], prefix)
      case None => None
      case Some(i) => Some(i + 1)
  }

  /** The canonical choice depends on the names alone. */
  lemma {:induction false} CanonicalByNames(a: seq<Deployment>, b: seq<Deployment>, prefix: string)
    requires |a| == |b|
    requires forall k :: 0 <= k < |a| ==> a[k].name == b[k].name
    ensures Canonical(a, prefix) == Canonical(b, prefix)
  {
    if |a| > 0 && !(prefix <= a[0].name) {
      CanonicalByNames(a[1..], b[1..], prefix);
    }
  }

  /** With no canonical Deployment, one appended with the prefix becomes canonical. */
  lemma {:induction false} CanonicalAppend(dps: seq<Deployment>, d: Deployment, prefix: string)
    requires Canonical(dps, prefix).None? && prefix <= d.name
    ensures Canonical(dps + [d], prefix) == Some(|dps|)
  {
    if |dps| > 0 {
      assert (dps + [d])[1..] == dps[1..] + [d];
      CanonicalAppend(dps[1..], d, prefix);
    }
  }

  function ScaledToZero(d: Deployment): Deployment {
    d.(replicas := 0)
  }

  function Emit(a: Option<Action>): seq<Action> {
    match a
    case None => []
    case Some(x) => [x]
  }

  /**
   * The call sync makes for the k-th claimed Deployment, given the index canon
   * of the canonical one: the canonical one is patched unless the LoadBalancer
   * is isStatic or nothing differs, every other one is scaled to zero unless it
   * is at zero already.
   */
  function ActionFor(ns: string, dps: seq<Deployment>, k: nat, canon: Option<nat>, desired: Deployment,
                     isStatic: bool): (a: Option<Action>)
    requires k < |dps| && WellFormed(dps[k]) && WellFormed(desired)
    ensures a.Some? ==> a.value.Update? && a.value.namespace == ns
    ensures a.Some? ==> a.value.deployment.name == dps[k].name && WellFormed(a.value.deployment)
  {
    if canon == Some(k) then
      if isStatic then None
      else if Agrees(desired, dps[k]) then None
      else Some(Update(ns, Patched(desired, dps[k])))
    else if dps[k].replicas == 0 then None
    else Some(Update(ns, ScaledToZero(dps[k])))
  }

  /** Before the canonical Deployment is reached, the next one is canonical exactly when it carries the prefix. */
  lemma CanonicalAt(dps: seq<Deployment>, prefix: string, i: nat)
    requires i < |dps|
    requires var canon := Canonical(dps, prefix); !(canon.Some? && canon.value < i)
    ensures prefix <= dps[i].name <==> Canonical(dps, prefix) == Some(i)
  {
  }

  /** A Deployment other than the canonical one gets a scale-to-zero Update, unless it is at zero. */
  lemma ActionForOther(ns: string, dps: seq<Deployment>, k: nat, canon: Option<nat>, desired: Deployment,
                       isStatic: bool)
    requires k < |dps| && WellFormed(dps[k]) && WellFormed(desired) && canon != Some(k)
    ensures ActionFor(ns, dps, k, canon, desired, isStatic) ==
              if dps[k].replicas == 0 then None else Some(Update(ns, dps[k].(replicas := 0)))
  {
  }

  /** The canonical Deployment gets the patched copy, unless static or already in agreement. */
  lemma ActionForCanonical(ns: string, dps: seq<Deployment>, k: nat, desired: Deployment, isStatic: bool)
    requires k < |dps| && WellFormed(dps[k]) && WellFormed(desired)
    ensures ActionFor(ns, dps, k, Some(k), desired, isStatic) ==
              if isStatic || Agrees(desired, dps[k]) then None else Some(Update(ns, Patched(desired, dps[k])))
  {
  }

  /** The call sync makes for each claimed Deployment, in list order. */
  function Calls(ns: string, dps: seq<Deployment>, canon: Option<nat>, desired: Deployment,
                 isStatic: bool): (r: seq<Option<Action>>)
    requires AllWellFormed(dps) && WellFormed(desired)
    ensures |r| == |dps|
    ensures forall k :: 0 <= k < |dps| ==> r[k] == ActionFor(ns, dps, k, canon, desired, isStatic)
  {
    seq(|dps|, k requires 0 <= k < |dps| => ActionFor(ns, dps, k, canon, desired, isStatic))
  }

  /** The calls actually made, in order. */
  function Flatten(calls: seq<Option<Action>>): seq<Action> {
    if calls == [] then []
    else Flatten(calls[..|calls| - 1]) + Emit(calls[|calls| - 1])
  }

  /** The error of the canonical Update, when that call is made and fails. */
  function CanonicalFailure(respond: (nat, Action) -> Option<Error>, base: nat, calls: seq<Option<Action>>,
                            canon: Option<nat>): (e: Option<Error>)
    requires canon.Some? ==> canon.value < |calls|
    ensures e.Some? ==> canon.Some? && calls[canon.value].Some?
  {
    match canon
    case None => None
    case Some(c) =>
      match calls[c]
      case None => None
      case Some(a) => respond(base + |Flatten(calls[..c])|, a)
  }

  /**
   * A pass that makes the given calls, in order, for the claimed Deployments
   * and knows the index canon of the canonical one: a failing canonical call
   * ends the pass with its error; otherwise every call is made, followed by a
   * Create of desired when there is no canonical Deployment.
   */
  function PassOutcome(respond: (nat, Action) -> Option<Error>, base: nat, ns: string,
                       calls: seq<Option<Action>>, canon: Option<nat>, desired: Deployment): Outcome
    requires canon.Some? ==> canon.value < |calls|
  {
    var failure := CanonicalFailure(respond, base, calls, canon);
    if failure.Some? then
      Outcome(Flatten(calls[..canon.value + 1]), failure)
    else if canon.Some? then
      Outcome(Flatten(calls), None)
    else
      var create := Create(ns, desired);
      Outcome(Flatten(calls) + [create], respond(base + |Flatten(calls)|, create))
  }

  /** How many of the calls a pass reaches: all of them unless the canonical one fails. */
  function Reached(respond: (nat, Action) -> Option<Error>, base: nat, calls: seq<Option<Action>>,
                   canon: Option<nat>): (n: nat)
    requires canon.Some? ==> canon.value < |calls|
    ensures n <= |calls|
  {
    if CanonicalFailure(respond, base, calls, canon).Some? then canon.value + 1 else |calls|
  }

  /**
   * One step of a pass that began after the calls prior: the i-th call is
   * made when present, and only the canonical one's answer can end the pass,
   * with the error PassOutcome reports for it.
   */
  lemma PassStep(respond: (nat, Action) -> Option<Error>, prior: seq<Action>, calls: seq<Option<Action>>,
                 canon: Option<nat>, i: nat, before: seq<Action>, after: seq<Action>, err: Option<Error>)
    requires i < |calls| && (canon.Some? ==> canon.value < |calls|)
    requires canon.Some? && canon.value < i ==> CanonicalFailure(respond, |prior|, calls, canon).None?
    requires before == prior + Flatten(calls[..i]) && after == before + Emit(calls[i])
    requires err == if canon == Some(i) && calls[i].Some? then respond(|before|, calls[i].value) else None
    ensures after == prior + Flatten(calls[..i + 1])
    ensures err.Some? ==> canon == Some(i) && err == CanonicalFailure(respond, |prior|, calls, canon)
    ensures err.None? && canon.Some? && canon.value <= i ==> CanonicalFailure(respond, |prior|, calls, canon).None?
  {
    assert calls[..i + 1][..i] == calls[..i];
    assert Flatten(calls[..i + 1]) == Flatten(calls[..i]) + Emit(calls[i]);
  }

  /** A pass whose canonical call fails makes the calls up to that one and returns its error. */
  lemma PassAborted(respond: (nat, Action) -> Option<Error>, base: nat, ns: string,
                    calls: seq<Option<Action>>, canon: Option<nat>, desired: Deployment)
    requires canon.Some? && canon.value < |calls|
    requires CanonicalFailure(respond, base, calls, canon).Some?
    ensures PassOutcome(respond, base, ns, calls, canon, desired) ==
              Outcome(Flatten(calls[..canon.value + 1]), CanonicalFailure(respond, base, calls, canon))
  {
  }

  /** A pass not cut short makes every call, then the Create when no Deployment is canonical. */
  lemma PassCompleted(respond: (nat, Action) -> Option<Error>, base: nat, ns: string,
                      calls: seq<Option<Action>>, canon: Option<nat>, desired: Deployment)
    requires canon.Some? ==> canon.value < |calls|
    requires CanonicalFailure(respond, base, calls, canon).None?
    ensures var made := Flatten(calls);
            var create := Create(ns, desired);
            PassOutcome(respond, base, ns, calls, canon, desired) ==
              if canon.Some? then Outcome(made, None)
              else Outcome(made + [create], respond(base + |made|, create))
  {
  }

  /**
   * One sync pass over the claimed Deployments dps of lb, when the provider has
   * made base calls before.
   */
  function SyncOutcome(env: Env, base: nat, lb: LoadBalancer, dps: seq<Deployment>, prefix: string, desired: Deployment): Outcome
    requires AllWellFormed(dps) && WellFormed(desired)
  {
    var canon := Canonical(dps, prefix);
    PassOutcome(env.respond, base, lb.namespace, Calls(lb.namespace, dps, canon, desired, env.isStatic(lb)), canon, desired)
  }

  /** The pass was cut short by a failing canonical Update. */
  predicate Aborted(env: Env, base: nat, lb: LoadBalancer, dps: seq<Deployment>, prefix: string, desired: Deployment)
    requires AllWellFormed(dps) && WellFormed(desired)
  {
    var canon := Canonical(dps, prefix);
    CanonicalFailure(env.respond, base, Calls(lb.namespace, dps, canon, desired, env.isStatic(lb)), canon).Some?
  }

  // ---------------------------------------------------------------------------
  // Reading a list of calls

  /** The Deployments sent by Update calls for the Deployment called name. */
  function UpdatesOf(actions: seq<Action>, name: string): seq<Deployment> {
    if actions == [] then []
    else
      var a := actions[|actions| - 1];
      UpdatesOf(actions[..|actions| - 1], name) + (if a.Update? && a.deployment.name == name then [a.deployment] else [])
  }

  /** The Deployments sent by Create calls. */
  function CreatesOf(actions: seq<Action>): seq<Deployment> {
    if actions == [] then []
    else
      var a := actions[|actions| - 1];
      CreatesOf(actions[..|actions| - 1]) + (if a.Create? then [a.deployment] else [])
  }

  lemma {:induction false} UpdatesOfAppend(a: seq<Action>, b: seq<Action>, name: string)
    ensures UpdatesOf(a + b, name) == UpdatesOf(a, name) + UpdatesOf(b, name)
    decreases |b|
  {
    if b == [] {
      assert a + b == a;
    } else {
      assert (a + b)[..|a + b| - 1] == a + b[..|b| - 1];
      UpdatesOfAppend(a, b[..|b| - 1], name);
    }
  }

  lemma {:induction false} CreatesOfAppend(a: seq<Action>, b: seq<Action>)
    ensures CreatesOf(a + b) == CreatesOf(a) + CreatesOf(b)
    decreases |b|
  {
    if b == [] {
      assert a + b == a;
    } else {
      assert (a + b)[..|a + b| - 1] == a + b[..|b| - 1];
      CreatesOfAppend(a, b[..|b| - 1]);
    }
  }

  lemma FlattenStep(calls: seq<Option<Action>>, i: nat)
    requires i < |calls|
    ensures Flatten(calls[..i + 1]) == Flatten(calls[..i]) + Emit(calls[i])
  {
    assert calls[..i + 1][..i] == calls[..i];
  }

  /**
   * When every call, if made, is an Update and only the k-th names the
   * Deployment called name, the first n calls send that Deployment exactly
   * what the k-th call sends, if k < n.
   */
  lemma {:induction false} FlattenUpdates(calls: seq<Option<Action>>, name: string, k: nat)
    requires forall j :: 0 <= j < |calls| && calls[j].Some? ==>
               calls[j].value.Update? && (calls[j].value.deployment.name == name <==> j == k)
    ensures UpdatesOf(Flatten(calls), name) ==
            if k < |calls| && calls[k].Some? then [calls[k].value.deployment] else []
    decreases |calls|
  {
    if calls != [] {
      var n := |calls| - 1;
      var e := Emit(calls[n]);
      var prev := calls[..n];
      assert Flatten(calls) == Flatten(prev) + e;
      FlattenUpdates(prev, name, k);
      UpdatesOfAppend(Flatten(prev), e, name);
      if calls[n].Some? {
        UpdatesOfSingle(calls[n].value, name);
      }
    }
  }

  /** Calls that are all Updates in namespace ns flatten to Updates in ns. */
  lemma {:induction false} FlattenOnlyUpdates(calls: seq<Option<Action>>, ns: string)
    requires forall j :: 0 <= j < |calls| && calls[j].Some? ==> calls[j].value.Update? && calls[j].value.namespace == ns
    ensures CreatesOf(Flatten(calls)) == []
    ensures forall a :: a in Flatten(calls) ==> a.Update? && a.namespace == ns
    decreases |calls|
  {
    if calls != [] {
      var n := |calls| - 1;
      var e := Emit(calls[n]);
      FlattenOnlyUpdates(calls[..n], ns);
      CreatesOfAppend(Flatten(calls[..n]), e);
      if calls[n].Some? {
        assert e[..0] == [];
      }
    }
  }

  lemma {:induction false} FlattenNone(calls: seq<Option<Action>>)
    requires forall j :: 0 <= j < |calls| ==> calls[j].None?
    ensures Flatten(calls) == []
    decreases |calls|
  {
    if calls != [] {
      FlattenNone(calls[..|calls| - 1]);
    }
  }

  lemma UpdatesOfSingle(a: Action, name: string)
    ensures UpdatesOf([a], name) == if a.Update? && a.deployment.name == name then [a.deployment] else []
  {
    assert [a][..0] == [];
  }

  /** A pass makes the calls it reaches, then the Create when no Deployment is canonical. */
  lemma PassActions(respond: (nat, Action) -> Option<Error>, base: nat, ns: string,
                    calls: seq<Option<Action>>, canon: Option<nat>, desired: Deployment)
    requires canon.Some? ==> canon.value < |calls|
    ensures PassOutcome(respond, base, ns, calls, canon, desired).actions ==
              Flatten(calls[..Reached(respond, base, calls, canon)]) + (if canon.None? then [Create(ns, desired)] else [])
  {
    assert calls[..|calls|] == calls;
  }

  /** The calls of a pass: the reached ones, then possibly the Create. */
  lemma PassCallsFacts(respond: (nat, Action) -> Option<Error>, base: nat, ns: string,
                       calls: seq<Option<Action>>, canon: Option<nat>, desired: Deployment)
    requires canon.Some? ==> canon.value < |calls|
    requires forall j :: 0 <= j < |calls| && calls[j].Some? ==> calls[j].value.Update? && calls[j].value.namespace == ns
    ensures var o := PassOutcome(respond, base, ns, calls, canon, desired);
            var made := Flatten(calls[..Reached(respond, base, calls, canon)]);
            && CreatesOf(o.actions) == (if canon.None? then [desired] else [])
            && (forall a :: a in made ==> a.Update? && a.namespace == ns)
            && o.actions == made + (if canon.None? then [Create(ns, desired)] else [])
  {
    var n := Reached(respond, base, calls, canon);
    assert calls[..|calls|] == calls;
    var made := Flatten(calls[..n]);
    var reached := calls[..n];
    forall j | 0 <= j < |reached| && reached[j].Some?
      ensures reached[j].value.Update? && reached[j].value.namespace == ns
    {
      assert reached[j] == calls[j];
    }
    FlattenOnlyUpdates(reached, ns);
    if canon.None? {
      var create := Create(ns, desired);
      CreatesOfAppend(made, [create]);
      assert [create][..0] == [];
    }
  }

  /** The Updates a pass sends to the Deployment only the k-th call names. */
  lemma PassUpdatesFacts(respond: (nat, Action) -> Option<Error>, base: nat, ns: string,
                         calls: seq<Option<Action>>, canon: Option<nat>, desired: Deployment, name: string, k: nat)
    requires canon.Some? ==> canon.value < |calls|
    requires forall j :: 0 <= j < |calls| && calls[j].Some? ==>
               && calls[j].value.Update? && calls[j].value.namespace == ns
               && (calls[j].value.deployment.name == name <==> j == k)
    ensures var n := Reached(respond, base, calls, canon);
            UpdatesOf(PassOutcome(respond, base, ns, calls, canon, desired).actions, name) ==
              if k < n && calls[k].Some? then [calls[k].value.deployment] else []
  {
    var n := Reached(respond, base, calls, canon);
    var made := Flatten(calls[..n]);
    PassActions(respond, base, ns, calls, canon, desired);
    var o := PassOutcome(respond, base, ns, calls, canon, desired);
    var reached := calls[..n];
    forall j | 0 <= j < |reached| && reached[j].Some?
      ensures reached[j].value.Update? && (reached[j].value.deployment.name == name <==> j == k)
    {
      assert reached[j] == calls[j];
    }
    FlattenUpdates(reached, name, k);
    assert k < n ==> reached[k] == calls[k];
    var sent := UpdatesOf(made, name);
    if canon.None? {
      var create := Create(ns, desired);
      assert o.actions == made + [create];
      UpdatesOfAppend(made, [create], name);
      UpdatesOfSingle(create, name);
      assert UpdatesOf(o.actions, name) == sent + [];
      assert sent + [] == sent;
    } else {
      assert o.actions == made;
    }
  }

  /** A failing canonical call is the last call of its pass, and its answer the pass's error. */
  lemma PassAbortFacts(respond: (nat, Action) -> Option<Error>, base: nat, ns: string,
                       calls: seq<Option<Action>>, canon: Option<nat>, desired: Deployment)
    requires canon.Some? ==> canon.value < |calls|
    requires CanonicalFailure(respond, base, calls, canon).Some?
    ensures var o := PassOutcome(respond, base, ns, calls, canon, desired);
            && |o.actions| > 0
            && o.actions[|o.actions| - 1] == calls[canon.value].value
            && o.err == respond(base + |o.actions| - 1, o.actions[|o.actions| - 1])
            && o.err.Some?
  {
    var c := canon.value;
    FlattenStep(calls, c);
    var before := Flatten(calls[..c]);
    var o := PassOutcome(respond, base, ns, calls, canon, desired);
    assert o.actions == before + [calls[c].value];
  }

  /** The calls of a sync pass: Updates in the LoadBalancer's namespace, then possibly the Create. */
  lemma SyncCallsFacts(env: Env, base: nat, lb: LoadBalancer, dps: seq<Deployment>, prefix: string, desired: Deployment)
    requires AllWellFormed(dps) && WellFormed(desired)
    ensures var o := SyncOutcome(env, base, lb, dps, prefix, desired);
            var canon := Canonical(dps, prefix);
            var calls := Calls(lb.namespace, dps, canon, desired, env.isStatic(lb));
            var made := Flatten(calls[..Reached(env.respond, base, calls, canon)]);
            && CreatesOf(o.actions) == (if canon.None? then [desired] else [])
            && (forall a :: a in made ==> a.Update? && a.namespace == lb.namespace)
            && o.actions == made + (if canon.None? then [Create(lb.namespace, desired)] else [])
  {
    var canon := Canonical(dps, prefix);
    var calls := Calls(lb.namespace, dps, canon, desired, env.isStatic(lb));
    PassCallsFacts(env.respond, base, lb.namespace, calls, canon, desired);
  }

  /** What a sync pass sends to the k-th claimed Deployment. */
  lemma SyncUpdatesFacts(env: Env, base: nat, lb: LoadBalancer, dps: seq<Deployment>, prefix: string, desired: Deployment, k: nat)
    requires AllWellFormed(dps) && WellFormed(desired) && DistinctNames(dps) && k < |dps|
    ensures var canon := Canonical(dps, prefix);
            var n := if Aborted(env, base, lb, dps, prefix, desired) then canon.value + 1 else |dps|;
            var a := ActionFor(lb.namespace, dps, k, canon, desired, env.isStatic(lb));
            UpdatesOf(SyncOutcome(env, base, lb, dps, prefix, desired).actions, dps[k].name) ==
              if k < n && a.Some? then [a.value.deployment] else []
  {
    var canon := Canonical(dps, prefix);
    var calls := Calls(lb.namespace, dps, canon, desired, env.isStatic(lb));
    forall j | 0 <= j < |calls| && calls[j].Some?
      ensures calls[j].value.deployment.name == dps[k].name <==> j == k
    {
      assert calls[j].value.deployment.name == dps[j].name;
      if j < k {
        assert dps[j].name != dps[k].name;
      } else if k < j {
        assert dps[k].name != dps[j].name;
      }
    }
    PassUpdatesFacts(env.respond, base, lb.namespace, calls, canon, desired, dps[k].name, k);
  }

  // ---------------------------------------------------------------------------
  // Properties of one sync pass

  /**
   * sync creates exactly one Deployment, the desired one, when no claimed
   * Deployment carries the canonical prefix, and none otherwise; it only
   * patches and creates, in the LoadBalancer's namespace, and never deletes.
   */
  lemma SyncCreatesIffNoCanonical(env: Env, base: nat, lb: LoadBalancer, dps: seq<Deployment>, prefix: string, desired: Deployment)
    requires AllWellFormed(dps) && WellFormed(desired)
    ensures var o := SyncOutcome(env, base, lb, dps, prefix, desired);
            CreatesOf(o.actions) ==
              if Canonical(dps, prefix).None?
              then [desired] else []
    ensures forall a :: a in SyncOutcome(env, base, lb, dps, prefix, desired).actions ==>
              (a.Update? || a.Create?) && a.namespace == lb.namespace
  {
    SyncCallsFacts(env, base, lb, dps, prefix, desired);
  }

  /**
   * Every claimed Deployment other than the canonical one, including a later
   * one with the canonical prefix, gets exactly one Update setting its replicas
   * to zero when they are not zero, and no call when they are; unless a failing
   * canonical Update earlier in the list ended the pass, in which case it gets none.
   */
  lemma SyncScalesDownOthers(env: Env, base: nat, lb: LoadBalancer, dps: seq<Deployment>, prefix: string, desired: Deployment, k: nat)
    requires AllWellFormed(dps) && WellFormed(desired) && DistinctNames(dps) && k < |dps|
    requires Canonical(dps, prefix) != Some(k)
    ensures var canon := Canonical(dps, prefix);
            UpdatesOf(SyncOutcome(env, base, lb, dps, prefix, desired).actions, dps[k].name) ==
              if (Aborted(env, base, lb, dps, prefix, desired) && canon.value < k) || dps[k].replicas == 0 then []
              else [dps[k].(replicas := 0)]
  {
    SyncUpdatesFacts(env, base, lb, dps, prefix, desired, k);
  }

  /**
   * The canonical Deployment gets no call when the LoadBalancer is static or
   * already agrees with the desired labels, replica count and image, and
   * exactly one Update carrying the patched copy otherwise.
   */
  lemma SyncPatchesCanonical(env: Env, base: nat, lb: LoadBalancer, dps: seq<Deployment>, prefix: string, desired: Deployment)
    requires AllWellFormed(dps) && WellFormed(desired) && DistinctNames(dps)
    requires Canonical(dps, prefix).Some?
    ensures var c := Canonical(dps, prefix).value;
            UpdatesOf(SyncOutcome(env, base, lb, dps, prefix, desired).actions, dps[c].name) ==
              if env.isStatic(lb) || Agrees(desired, dps[c]) then [] else [Patched(desired, dps[c])]
  {
    var c := Canonical(dps, prefix).value;
    SyncUpdatesFacts(env, base, lb, dps, prefix, desired, c);
    DiffersIff(desired, dps[c]);
  }

  /** A failing canonical Update is the last call of its pass. */
  lemma SyncAbortEndsWithCanonical(env: Env, base: nat, lb: LoadBalancer, dps: seq<Deployment>, prefix: string,
                                   desired: Deployment)
    requires AllWellFormed(dps) && WellFormed(desired)
    requires Aborted(env, base, lb, dps, prefix, desired)
    ensures var o := SyncOutcome(env, base, lb, dps, prefix, desired);
            && |o.actions| > 0
            && o.actions[|o.actions| - 1].Update?
            && o.actions[|o.actions| - 1].deployment.name == dps[Canonical(dps, prefix).value].name
  {
    var canon := Canonical(dps, prefix);
    var calls := Calls(lb.namespace, dps, canon, desired, env.isStatic(lb));
    var o := SyncOutcome(env, base, lb, dps, prefix, desired);
    assert o == PassOutcome(env.respond, base, lb.namespace, calls, canon, desired);
    PassAbortFacts(env.respond, base, lb.namespace, calls, canon, desired);
    var last := calls[canon.value].value;
    assert last.Update? && last.deployment.name == dps[canon.value].name;
    assert o.actions[|o.actions| - 1] == last;
  }

  /** The answer to a failing canonical Update, its last call, is the pass's error. */
  lemma SyncAbortReturnsError(env: Env, base: nat, lb: LoadBalancer, dps: seq<Deployment>, prefix: string,
                              desired: Deployment)
    requires AllWellFormed(dps) && WellFormed(desired)
    requires Aborted(env, base, lb, dps, prefix, desired)
    ensures var o := SyncOutcome(env, base, lb, dps, prefix, desired);
            && |o.actions| > 0
            && o.err == env.respond(base + |o.actions| - 1, o.actions[|o.actions| - 1])
            && o.err.Some?
  {
    var canon := Canonical(dps, prefix);
    var calls := Calls(lb.namespace, dps, canon, desired, env.isStatic(lb));
    var o := SyncOutcome(env, base, lb, dps, prefix, desired);
    assert o == PassOutcome(env.respond, base, lb.namespace, calls, canon, desired);
    PassAbortFacts(env.respond, base, lb.namespace, calls, canon, desired);
  }

  /**
   * After a failing canonical Update nothing is created and no Deployment
   * later in the list is scaled down.
   */
  lemma SyncAbortStopsPass(env: Env, base: nat, lb: LoadBalancer, dps: seq<Deployment>, prefix: string, desired: Deployment, k: nat)
    requires AllWellFormed(dps) && WellFormed(desired) && DistinctNames(dps)
    requires Aborted(env, base, lb, dps, prefix, desired)
    requires Canonical(dps, prefix).value < k < |dps|
    ensures var o := SyncOutcome(env, base, lb, dps, prefix, desired);
            UpdatesOf(o.actions, dps[k].name) == [] && CreatesOf(o.actions) == []
  {
    SyncCallsFacts(env, base, lb, dps, prefix, desired);
    SyncUpdatesFacts(env, base, lb, dps, prefix, desired, k);
  }

  /**
   * Where the error of a pass comes from: any error is the answer to the
   * pass's last call; with no canonical Deployment that call is the Create of
   * desired; with one, a pass not cut short returns no error.
   */
  lemma PassErrorSources(respond: (nat, Action) -> Option<Error>, base: nat, ns: string,
                         calls: seq<Option<Action>>, canon: Option<nat>, desired: Deployment)
    requires canon.Some? ==> canon.value < |calls|
    ensures var o := PassOutcome(respond, base, ns, calls, canon, desired);
            o.err.Some? ==> |o.actions| > 0 && o.err == respond(base + |o.actions| - 1, o.actions[|o.actions| - 1])
    ensures var o := PassOutcome(respond, base, ns, calls, canon, desired);
            canon.None? ==>
              && |o.actions| > 0
              && o.actions[|o.actions| - 1] == Create(ns, desired)
              && o.err == respond(base + |o.actions| - 1, Create(ns, desired))
    ensures canon.Some? && CanonicalFailure(respond, base, calls, canon).None? ==>
              PassOutcome(respond, base, ns, calls, canon, desired).err.None?
  {
    if CanonicalFailure(respond, base, calls, canon).Some? {
      PassAbortFacts(respond, base, ns, calls, canon, desired);
    }
  }

  /**
   * Where the error of a sync pass comes from: any error is the answer to its
   * last call; with no canonical Deployment that call is the Create of
   * desired (azure.go's failing Create is returned); with one, a pass not cut
   * short by its Update returns no error.
   */
  lemma SyncErrorSources(env: Env, base: nat, lb: LoadBalancer, dps: seq<Deployment>, prefix: string, desired: Deployment)
    requires AllWellFormed(dps) && WellFormed(desired)
    ensures var o := SyncOutcome(env, base, lb, dps, prefix, desired);
            o.err.Some? ==> |o.actions| > 0 && o.err == env.respond(base + |o.actions| - 1, o.actions[|o.actions| - 1])
    ensures var o := SyncOutcome(env, base, lb, dps, prefix, desired);
            var create := Create(lb.namespace, desired);
            Canonical(dps, prefix).None? ==>
              && |o.actions| > 0
              && o.actions[|o.actions| - 1] == create
              && o.err == env.respond(base + |o.actions| - 1, create)
    ensures Canonical(dps, prefix).Some? && !Aborted(env, base, lb, dps, prefix, desired) ==>
              SyncOutcome(env, base, lb, dps, prefix, desired).err.None?
  {
    var canon := Canonical(dps, prefix);
    var calls := Calls(lb.namespace, dps, canon, desired, env.isStatic(lb));
    assert SyncOutcome(env, base, lb, dps, prefix, desired) ==
           PassOutcome(env.respond, base, lb.namespace, calls, canon, desired);
    PassErrorSources(env.respond, base, lb.namespace, calls, canon, desired);
  }

  /**
   * The answers to scale-to-zero Updates never change a pass: two APIs that
   * answer every other call alike give the same calls and the same error.
   */
  lemma SyncIgnoresScaleDownAnswers(env: Env, respond: (nat, Action) -> Option<Error>, base: nat,
                                    lb: LoadBalancer, dps: seq<Deployment>, prefix: string, desired: Deployment)
    requires AllWellFormed(dps) && WellFormed(desired) && desired.replicas != 0
    requires forall n: nat, a: Action :: !(a.Update? && a.deployment.replicas == 0) ==> env.respond(n, a) == respond(n, a)
    ensures SyncOutcome(env, base, lb, dps, prefix, desired) == SyncOutcome(env.(respond := respond), base, lb, dps, prefix, desired)
  {
    var canon := Canonical(dps, prefix);
    var calls := Calls(lb.namespace, dps, canon, desired, env.isStatic(lb));
    if canon.Some? && calls[canon.value].Some? {
      assert calls[canon.value].value.deployment.replicas == desired.replicas;
    }
  }

  // ---------------------------------------------------------------------------
  // The state a complete pass leaves behind

  /**
   * The k-th claimed Deployment once the pass has taken effect: the canonical
   * one patched unless the LoadBalancer is static, every other one at zero
   * replicas.
   */
  function After(dps: seq<Deployment>, k: nat, canon: Option<nat>, desired: Deployment, isStatic: bool): (d: Deployment)
    requires k < |dps| && AllWellFormed(dps) && WellFormed(desired)
    ensures WellFormed(d) && d.name == dps[k].name
  {
    if canon != Some(k) then ScaledToZero(dps[k])
    else if isStatic then dps[k]
    else Patched(desired, dps[k])
  }

  /** After is what the call sync makes for the k-th claimed Deployment leaves behind. */
  lemma AfterIsCallEffect(ns: string, dps: seq<Deployment>, k: nat, canon: Option<nat>, desired: Deployment,
                          isStatic: bool)
    requires k < |dps| && AllWellFormed(dps) && WellFormed(desired)
    ensures After(dps, k, canon, desired, isStatic) ==
              match ActionFor(ns, dps, k, canon, desired, isStatic)
              case None => dps[k]
              case Some(a) => a.deployment
  {
    if canon == Some(k) && !isStatic {
      DiffersIff(desired, dps[k]);
    }
  }

  /**
   * The claimed Deployments after a pass of sync whose calls all succeeded,
   * with the created Deployment, if any, claimed last.
   */
  function AtRest(env: Env, lb: LoadBalancer, dps: seq<Deployment>, prefix: string, desired: Deployment): (r: seq<Deployment>)
    requires AllWellFormed(dps) && WellFormed(desired)
    ensures AllWellFormed(r)
    ensures |r| == |dps| + (if Canonical(dps, prefix).None? then 1 else 0)
  {
    var canon := Canonical(dps, prefix);
    var settled := seq(|dps|, k requires 0 <= k < |dps| => After(dps, k, canon, desired, env.isStatic(lb)));
    if canon.None? then settled + [desired] else settled
  }

  /** After a complete pass the canonical Deployment is the one that was, or else the created one. */
  lemma AtRestCanonical(env: Env, lb: LoadBalancer, dps: seq<Deployment>, prefix: string, desired: Deployment)
    requires AllWellFormed(dps) && WellFormed(desired) && prefix <= desired.name
    ensures var canon := Canonical(dps, prefix);
            Canonical(AtRest(env, lb, dps, prefix, desired), prefix) ==
              if canon.Some? then canon else Some(|dps|)
  {
    var canon := Canonical(dps, prefix);
    var settled := seq(|dps|, k requires 0 <= k < |dps| => After(dps, k, canon, desired, env.isStatic(lb)));
    assert forall k :: 0 <= k < |dps| ==> settled[k].name == dps[k].name;
    CanonicalByNames(settled, dps, prefix);
    if canon.None? {
      CanonicalAppend(settled, desired, prefix);
    }
  }

  /**
   * After a complete pass exactly one claimed Deployment is canonical, the one
   * that was canonical or else the created one; every other Deployment, with
   * the canonical prefix or not, has zero replicas; and unless the
   * LoadBalancer is static the canonical one agrees with the desired Deployment.
   */
  lemma AtRestOneActive(env: Env, lb: LoadBalancer, dps: seq<Deployment>, prefix: string, desired: Deployment)
    requires AllWellFormed(dps) && WellFormed(desired) && prefix <= desired.name
    ensures var next := AtRest(env, lb, dps, prefix, desired);
            var canon := Canonical(dps, prefix);
            var c := Canonical(next, prefix);
            && c == (if canon.Some? then canon else Some(|dps|))
            && (forall k :: 0 <= k < |next| && k != c.value ==> next[k].replicas == 0)
            && (!env.isStatic(lb) ==> Agrees(desired, next[c.value]))
  {
    AtRestCanonical(env, lb, dps, prefix, desired);
    AtRestOthersIdle(env, lb, dps, prefix, desired);
    if !env.isStatic(lb) {
      AtRestCanonicalAgrees(env, lb, dps, prefix, desired);
    }
  }

  lemma AtRestOthersIdle(env: Env, lb: LoadBalancer, dps: seq<Deployment>, prefix: string, desired: Deployment)
    requires AllWellFormed(dps) && WellFormed(desired)
    ensures var next := AtRest(env, lb, dps, prefix, desired);
            var canon := Canonical(dps, prefix);
            var c := if canon.Some? then canon.value else |dps|;
            forall k :: 0 <= k < |next| && k != c ==> next[k].replicas == 0
  {
    var canon := Canonical(dps, prefix);
    var next := AtRest(env, lb, dps, prefix, desired);
    var c := if canon.Some? then canon.value else |dps|;
    forall k | 0 <= k < |next| && k != c
      ensures next[k].replicas == 0
    {
      assert next[k] == After(dps, k, canon, desired, env.isStatic(lb));
    }
  }

  lemma AtRestCanonicalAgrees(env: Env, lb: LoadBalancer, dps: seq<Deployment>, prefix: string, desired: Deployment)
    requires AllWellFormed(dps) && WellFormed(desired) && !env.isStatic(lb)
    ensures var next := AtRest(env, lb, dps, prefix, desired);
            var canon := Canonical(dps, prefix);
            Agrees(desired, next[if canon.Some? then canon.value else |dps|])
  {
    var canon := Canonical(dps, prefix);
    var next := AtRest(env, lb, dps, prefix, desired);
    if canon.Some? {
      var c := canon.value;
      assert next[c] == Patched(desired, dps[c]);
      PatchedAgrees(desired, dps[c]);
    } else {
      assert next[|dps|] == desired;
      PatchedSelf(desired);
      PatchedAgrees(desired, desired);
    }
  }

  /**
   * Reconciling again once a pass has taken effect makes no call and
   * succeeds, when the second pass wants the same labels, replica count and
   * image (as two Deployments generated for one LoadBalancer with different
   * random suffixes do).
   */
  lemma SecondPassQuiet(env: Env, base: nat, lb: LoadBalancer, dps: seq<Deployment>, prefix: string, desired: Deployment,
                        desired2: Deployment)
    requires AllWellFormed(dps) && WellFormed(desired) && prefix <= desired.name
    requires WellFormed(desired2) && desired2.labels == desired.labels
    requires desired2.replicas == desired.replicas && Image(desired2) == Image(desired)
    ensures SyncOutcome(env, base, lb, AtRest(env, lb, dps, prefix, desired), prefix, desired2) == Outcome([], None)
  {
    var isStatic := env.isStatic(lb);
    var next := AtRest(env, lb, dps, prefix, desired);
    var c := Canonical(next, prefix);
    var calls := Calls(lb.namespace, next, c, desired2, isStatic);
    AtRestOneActive(env, lb, dps, prefix, desired);
    forall k | 0 <= k < |next|
      ensures calls[k].None?
    {
      if k == c.value && !isStatic {
        assert Agrees(desired2, next[k]);
        DiffersIff(desired2, next[k]);
      }
    }
    FlattenNone(calls);
  }

  /** At most one of the Deployments carries the prefix. */
  predicate AtMostOnePrefixed(dps: seq<Deployment>, prefix: string) {
    forall i, j :: 0 <= i < |dps| && 0 <= j < |dps| && prefix <= dps[i].name && prefix <= dps[j].name ==> i == j
  }

  /**
   * When the Deployments a successful pass left carry the prefix only once,
   * the quiet second pass does not depend on the listing order: the same
   * Deployments listed in any order make no call and succeed.
   */
  lemma SecondPassQuietAnyOrder(env: Env, base: nat, lb: LoadBalancer, dps: seq<Deployment>, prefix: string,
                                desired: Deployment, desired2: Deployment, next2: seq<Deployment>)
    requires AllWellFormed(dps) && WellFormed(desired) && prefix <= desired.name
    requires WellFormed(desired2) && desired2.labels == desired.labels
    requires desired2.replicas == desired.replicas && Image(desired2) == Image(desired)
    requires multiset(next2) == multiset(AtRest(env, lb, dps, prefix, desired))
    requires AtMostOnePrefixed(next2, prefix)
    ensures AllWellFormed(next2)
    ensures SyncOutcome(env, base, lb, next2, prefix, desired2) == Outcome([], None)
  {
    var next := AtRest(env, lb, dps, prefix, desired);
    AtRestOneActive(env, lb, dps, prefix, desired);
    var c := Canonical(next, prefix).value;
    assert !env.isStatic(lb) ==> Agrees(desired2, next[c]);
    ReorderedQuiet(env, base, lb, next, c, prefix, desired2, next2);
  }

  /**
   * A listing of Deployments that carries the prefix once, on the
   * Deployment at c of a settled list, with every other one idle, gets no call.
   */
  lemma ReorderedQuiet(env: Env, base: nat, lb: LoadBalancer, next: seq<Deployment>, c: nat, prefix: string,
                       desired2: Deployment, next2: seq<Deployment>)
    requires AllWellFormed(next) && WellFormed(desired2) && c < |next| && prefix <= next[c].name
    requires forall k :: 0 <= k < |next| && k != c ==> next[k].replicas == 0
    requires !env.isStatic(lb) ==> Agrees(desired2, next[c])
    requires multiset(next2) == multiset(next) && AtMostOnePrefixed(next2, prefix)
    ensures AllWellFormed(next2)
    ensures SyncOutcome(env, base, lb, next2, prefix, desired2) == Outcome([], None)
  {
    var isStatic := env.isStatic(lb);
    forall k | 0 <= k < |next2|
      ensures next2[k] in next && WellFormed(next2[k])
    {
      assert next2[k] in multiset(next2);
    }
    assert next[c] in multiset(next);
    var j :| 0 <= j < |next2| && next2[j] == next[c];
    var c2 := Canonical(next2, prefix);
    assert c2 == Some(j);
    var calls := Calls(lb.namespace, next2, c2, desired2, isStatic);
    forall k | 0 <= k < |next2|
      ensures calls[k].None?
    {
      if k != j {
        var m :| 0 <= m < |next| && next[m] == next2[k];
        assert m != c;
      }
    }
    FlattenNone(calls);
  }

  /**
   * Without a fixed listing order the quiet second pass fails once two claimed
   * Deployments carry the prefix. A pass over [a, b], both agreeing with the
   * desired Deployment, leaves a as it is and scales b to zero. A second pass
   * over the same two listed the other way round takes the idle b as
   * canonical and patches it back up, and unless that call fails also scales
   * a to zero.
   */
  lemma ReorderedSecondPassFlipFlops(env: Env, base: nat, lb: LoadBalancer, a: Deployment, b: Deployment,
                                     prefix: string, desired: Deployment)
    requires WellFormed(a) && WellFormed(b) && WellFormed(desired)
    requires prefix <= a.name && prefix <= b.name
    requires Agrees(desired, a) && Agrees(desired, b) && desired.replicas != 0
    requires !env.isStatic(lb)
    ensures AtRest(env, lb, [a, b], prefix, desired) == [a, b.(replicas := 0)]
    ensures var b0 := b.(replicas := 0);
            var patch := Update(lb.namespace, Patched(desired, b0));
            var o := SyncOutcome(env, base, lb, [b0, a], prefix, desired);
            && Patched(desired, b0) != b0
            && o.err == env.respond(base, patch)
            && o.actions == if o.err.Some? then [patch] else [patch, Update(lb.namespace, a.(replicas := 0))]
  {
    FirstPassKeepsFirst(env, lb, a, b, prefix, desired);
    ReorderedPassPatchesIdle(env, base, lb, a, b.(replicas := 0), prefix, desired);
  }

  lemma FirstPassKeepsFirst(env: Env, lb: LoadBalancer, a: Deployment, b: Deployment, prefix: string,
                            desired: Deployment)
    requires WellFormed(a) && WellFormed(b) && WellFormed(desired)
    requires prefix <= a.name && Agrees(desired, a) && !env.isStatic(lb)
    ensures AtRest(env, lb, [a, b], prefix, desired) == [a, b.(replicas := 0)]
  {
    DiffersIff(desired, a);
    assert Canonical([a, b], prefix) == Some(0);
  }

  lemma ReorderedPassPatchesIdle(env: Env, base: nat, lb: LoadBalancer, a: Deployment, b0: Deployment,
                                 prefix: string, desired: Deployment)
    requires WellFormed(a) && WellFormed(b0) && WellFormed(desired)
    requires prefix <= b0.name && b0.replicas == 0 && desired.replicas != 0 && a.replicas != 0
    requires !env.isStatic(lb)
    ensures var patch := Update(lb.namespace, Patched(desired, b0));
            var o := SyncOutcome(env, base, lb, [b0, a], prefix, desired);
            && Patched(desired, b0) != b0
            && o.err == env.respond(base, patch)
            && o.actions == if o.err.Some? then [patch] else [patch, Update(lb.namespace, a.(replicas := 0))]
  {
    var ns := lb.namespace;
    var patch := Update(ns, Patched(desired, b0));
    var scale := Update(ns, a.(replicas := 0));
    var dps := [b0, a];
    assert Canonical(dps, prefix) == Some(0);
    var calls := Calls(ns, dps, Some(0), desired, false);
    assert SyncOutcome(env, base, lb, dps, prefix, desired) == PassOutcome(env.respond, base, ns, calls, Some(0), desired);
    ActionForCanonical(ns, dps, 0, desired, false);
    ActionForOther(ns, dps, 1, Some(0), desired, false);
    assert calls == [Some(patch), Some(scale)];
    FlattenPair(patch, scale);
    assert CanonicalFailure(env.respond, base, calls, Some(0)) == env.respond(base, patch);
    if env.respond(base, patch).Some? {
      PassAborted(env.respond, base, ns, calls, Some(0), desired);
    } else {
      PassCompleted(env.respond, base, ns, calls, Some(0), desired);
    }
  }

  lemma FlattenPair(x: Action, y: Action)
    ensures Flatten([Some(x), Some(y)][..0]) == []
    ensures Flatten([Some(x), Some(y)][..1]) == [x]
    ensures Flatten([Some(x), Some(y)]) == [x, y]
  {
    var calls := [Some(x), Some(y)];
    assert calls[..0] == [];
    assert calls[..1][..0] == [];
    assert calls[..|calls| - 1] == calls[..1];
  }

  // ---------------------------------------------------------------------------
  // cleanup

  /** One Delete per Deployment, in list order, each in the Deployment's own namespace. */
  function Deletes(ds: seq<Deployment>): (r: seq<Action>)
    ensures |r| == |ds|
    ensures forall i :: 0 <= i < |ds| ==> r[i] == Delete(ds[i].namespace, ds[i].name)
  {
    seq(|ds|, i requires 0 <= i < |ds| => Delete(ds[i].namespace, ds[i].name))
  }

  /**
   * A cleanup pass for lb: a failing claim is returned before anything is
   * deleted; otherwise every claimed Deployment is deleted, the answers being
   * ignored, and the status is cleared when asked, its answer being returned.
   */
  function CleanupOutcome(respond: (nat, Action) -> Option<Error>, base: nat, lb: LoadBalancer,
                          claimed: Result<seq<Deployment>, Error>, deleteStatus: bool): Outcome
  {
    match claimed
    case Failure(e) => Outcome([], Some(e))
    case Success(ds) =>
      var deletes := Deletes(ds);
      if deleteStatus then
        var clear := DeleteStatus(lb.namespace, lb.name);
        Outcome(deletes + [clear], respond(base + |deletes|, clear))
      else Outcome(deletes, None)
  }

  /**
   * Cleanup deletes every claimed Deployment and nothing else, never patches
   * or creates, clears the status exactly when asked, and can fail only
   * through the claim or the status call.
   */
  lemma CleanupDeletesAll(respond: (nat, Action) -> Option<Error>, base: nat, lb: LoadBalancer,
                          claimed: Result<seq<Deployment>, Error>, deleteStatus: bool)
    ensures var o := CleanupOutcome(respond, base, lb, claimed, deleteStatus);
            && (claimed.Failure? ==> o == Outcome([], Some(claimed.error)))
            && (claimed.Success? ==>
                  && (forall d :: d in claimed.value ==> Delete(d.namespace, d.name) in o.actions)
                  && (forall a :: a in o.actions && a.Delete? ==> exists d :: d in claimed.value && a == Delete(d.namespace, d.name))
                  && (DeleteStatus(lb.namespace, lb.name) in o.actions <==> deleteStatus)
                  && (forall a :: a in o.actions ==> a.Delete? || a == DeleteStatus(lb.namespace, lb.name))
                  && (o.err.Some? ==> deleteStatus && o.err == respond(base + |claimed.value|, DeleteStatus(lb.namespace, lb.name))))
  {
    if claimed.Success? {
      var ds := claimed.value;
      var o := CleanupOutcome(respond, base, lb, claimed, deleteStatus);
      forall d | d in ds
        ensures Delete(d.namespace, d.name) in o.actions
      {
        var i :| 0 <= i < |ds| && ds[i] == d;
        assert o.actions[i] == Delete(d.namespace, d.name);
      }
      forall a | a in o.actions && a.Delete?
        ensures exists d :: d in ds && a == Delete(d.namespace, d.name)
      {
        var i :| 0 <= i < |o.actions| && o.actions[i] == a;
        assert ds[i] in ds;
      }
    }
  }

  /**
   * Where the error of a cleanup comes from: the claim error, with no call,
   * or else the answer to its last call, the status clear.
   */
  lemma CleanupErrorSources(respond: (nat, Action) -> Option<Error>, base: nat, lb: LoadBalancer,
                            claimed: Result<seq<Deployment>, Error>, deleteStatus: bool)
    ensures var o := CleanupOutcome(respond, base, lb, claimed, deleteStatus);
            o.err.Some? ==>
              || (o.actions == [] && claimed.Failure? && o.err == Some(claimed.error))
              || (&& |o.actions| > 0
                  && o.actions[|o.actions| - 1] == DeleteStatus(lb.namespace, lb.name)
                  && o.err == respond(base + |o.actions| - 1, o.actions[|o.actions| - 1]))
  {
  }

  // ---------------------------------------------------------------------------
  // syncLoadBalancer

  /**
   * One reconciliation of lb: validate it, look it up, compare its UID, clean
   * up when it is gone or no longer asks for azure, return a claim error, do
   * nothing while it is being deleted, and sync otherwise.
   */
  function DispatchOutcome(env: Env, base: nat, lb: LoadBalancer, view: Cluster, suffix: string): Outcome
    requires view.claimed.Success? ==> AllWellFormed(view.claimed.value)
  {
    match env.validate(lb)
    case Some(e) => Outcome([], Some(e))
    case None =>
      match view.stored
      case Failure(e) =>
        if e.NotFound? then CleanupOutcome(env.respond, base, lb, view.claimed, false)
        else Outcome([], Some(e))
      case Success(live) =>
        if lb.uid != live.uid then Outcome([], None)
        else if !live.azureRequested then CleanupOutcome(env.respond, base, live, view.claimed, true)
        else match view.claimed
          case Failure(e) => Outcome([], Some(e))
          case Success(dps) =>
            if live.deletionTimestamp.Some? then Outcome([], None)
            else SyncOutcome(env, base, live, dps, CanonicalPrefix(live.name), GenerateDeployment(live, env.image, env.createdBy, suffix))
  }

  /** The branch of a reconciliation that runs sync. */
  lemma DispatchSyncs(env: Env, base: nat, lb: LoadBalancer, view: Cluster, suffix: string)
    requires view.claimed.Success? ==> AllWellFormed(view.claimed.value)
    requires env.validate(lb).None? && view.stored.Success? && view.stored.value.uid == lb.uid
    requires view.stored.value.azureRequested && view.claimed.Success? && view.stored.value.deletionTimestamp.None?
    ensures var live := view.stored.value;
            DispatchOutcome(env, base, lb, view, suffix) ==
              SyncOutcome(env, base, live, view.claimed.value, CanonicalPrefix(live.name),
                          GenerateDeployment(live, env.image, env.createdBy, suffix))
  {
  }

  /** The branch of a reconciliation that cleans up after a LoadBalancer that is gone. */
  lemma DispatchCleansUpGone(env: Env, base: nat, lb: LoadBalancer, view: Cluster, suffix: string)
    requires view.claimed.Success? ==> AllWellFormed(view.claimed.value)
    requires env.validate(lb).None? && view.stored == Failure(NotFound)
    ensures DispatchOutcome(env, base, lb, view, suffix) == CleanupOutcome(env.respond, base, lb, view.claimed, false)
  {
  }

  /** The branch of a reconciliation that cleans up for a LoadBalancer no longer asking for azure. */
  lemma DispatchCleansUpUnrequested(env: Env, base: nat, lb: LoadBalancer, view: Cluster, suffix: string)
    requires view.claimed.Success? ==> AllWellFormed(view.claimed.value)
    requires env.validate(lb).None? && view.stored.Success? && view.stored.value.uid == lb.uid
    requires !view.stored.value.azureRequested
    ensures DispatchOutcome(env, base, lb, view, suffix) ==
              CleanupOutcome(env.respond, base, view.stored.value, view.claimed, true)
  {
  }

  /**
   * A reconciliation makes an Update or Create call only for a valid, live,
   * same-UID LoadBalancer that asks for azure and is not being deleted, after
   * a successful claim.
   */
  lemma DispatchGuards(env: Env, base: nat, lb: LoadBalancer, view: Cluster, suffix: string)
    requires view.claimed.Success? ==> AllWellFormed(view.claimed.value)
    ensures var o := DispatchOutcome(env, base, lb, view, suffix);
            (exists a :: a in o.actions && (a.Update? || a.Create?)) ==>
              && env.validate(lb).None?
              && view.stored.Success? && view.stored.value.uid == lb.uid
              && view.stored.value.azureRequested && view.stored.value.deletionTimestamp.None?
              && view.claimed.Success?
  {
    var o := DispatchOutcome(env, base, lb, view, suffix);
    DispatchEarlyReturns(env, base, lb, view, suffix);
    if env.validate(lb).None? {
      if view.stored == Failure(NotFound) {
        DispatchCleansUpGone(env, base, lb, view, suffix);
        CleanupDeletesAll(env.respond, base, lb, view.claimed, false);
      } else if view.stored.Success? && view.stored.value.uid == lb.uid {
        var live := view.stored.value;
        if !live.azureRequested {
          DispatchCleansUpUnrequested(env, base, lb, view, suffix);
          CleanupDeletesAll(env.respond, base, live, view.claimed, true);
        } else if view.claimed.Success? && live.deletionTimestamp.None? {
          DispatchSyncs(env, base, lb, view, suffix);
          SyncCreatesIffNoCanonical(env, base, live, view.claimed.value, CanonicalPrefix(live.name),
                                    GenerateDeployment(live, env.image, env.createdBy, suffix));
        }
      }
    }
  }

  /**
   * A reconciliation deletes only after a successful claim for a valid
   * LoadBalancer that is gone, or live with the same UID and no longer asking
   * for azure.
   */
  lemma DispatchDeleteGuards(env: Env, base: nat, lb: LoadBalancer, view: Cluster, suffix: string)
    requires view.claimed.Success? ==> AllWellFormed(view.claimed.value)
    ensures var o := DispatchOutcome(env, base, lb, view, suffix);
            (exists a :: a in o.actions && (a.Delete? || a.DeleteStatus?)) ==>
              && env.validate(lb).None?
              && view.claimed.Success?
              && (view.stored == Failure(NotFound) ||
                  (view.stored.Success? && view.stored.value.uid == lb.uid && !view.stored.value.azureRequested))
  {
    var o := DispatchOutcome(env, base, lb, view, suffix);
    DispatchEarlyReturns(env, base, lb, view, suffix);
    if env.validate(lb).None? {
      if view.stored == Failure(NotFound) {
        DispatchCleansUpGone(env, base, lb, view, suffix);
        CleanupDeletesAll(env.respond, base, lb, view.claimed, false);
      } else if view.stored.Success? && view.stored.value.uid == lb.uid {
        var live := view.stored.value;
        if !live.azureRequested {
          DispatchCleansUpUnrequested(env, base, lb, view, suffix);
          CleanupDeletesAll(env.respond, base, live, view.claimed, true);
        } else if view.claimed.Success? && live.deletionTimestamp.None? {
          DispatchSyncs(env, base, lb, view, suffix);
          SyncCreatesIffNoCanonical(env, base, live, view.claimed.value, CanonicalPrefix(live.name),
                                    GenerateDeployment(live, env.image, env.createdBy, suffix));
        }
      }
    }
  }

  /**
   * A reconciliation clears the LoadBalancer's status exactly when it is
   * valid, the live LoadBalancer has the same UID and no longer asks for
   * azure, and the claim succeeds.
   */
  lemma DispatchClearsStatusIff(env: Env, base: nat, lb: LoadBalancer, view: Cluster, suffix: string)
    requires view.claimed.Success? ==> AllWellFormed(view.claimed.value)
    ensures var o := DispatchOutcome(env, base, lb, view, suffix);
            (exists a :: a in o.actions && a.DeleteStatus?) <==>
              && env.validate(lb).None?
              && view.stored.Success? && view.stored.value.uid == lb.uid
              && !view.stored.value.azureRequested
              && view.claimed.Success?
  {
    var o := DispatchOutcome(env, base, lb, view, suffix);
    DispatchEarlyReturns(env, base, lb, view, suffix);
    if env.validate(lb).None? {
      if view.stored == Failure(NotFound) {
        DispatchCleansUpGone(env, base, lb, view, suffix);
        CleanupDeletesAll(env.respond, base, lb, view.claimed, false);
      } else if view.stored.Success? && view.stored.value.uid == lb.uid {
        var live := view.stored.value;
        if !live.azureRequested {
          DispatchCleansUpUnrequested(env, base, lb, view, suffix);
          CleanupDeletesAll(env.respond, base, live, view.claimed, true);
          if view.claimed.Success? {
            assert DeleteStatus(live.namespace, live.name) in o.actions;
          }
        } else if view.claimed.Success? && live.deletionTimestamp.None? {
          DispatchSyncs(env, base, lb, view, suffix);
          SyncCreatesIffNoCanonical(env, base, live, view.claimed.value, CanonicalPrefix(live.name),
                                    GenerateDeployment(live, env.image, env.createdBy, suffix));
        }
      }
    }
  }

  /**
   * The early returns of a reconciliation make no call: the validation error,
   * a store error other than not-found and a claim error are returned as they
   * are, and a stale UID or a LoadBalancer being deleted gives no error.
   */
  lemma DispatchEarlyReturns(env: Env, base: nat, lb: LoadBalancer, view: Cluster, suffix: string)
    requires view.claimed.Success? ==> AllWellFormed(view.claimed.value)
    ensures var o := DispatchOutcome(env, base, lb, view, suffix);
            env.validate(lb).Some? ==> o == Outcome([], env.validate(lb))
    ensures var o := DispatchOutcome(env, base, lb, view, suffix);
            env.validate(lb).None? && view.stored.Failure? && !view.stored.error.NotFound? ==>
              o == Outcome([], Some(view.stored.error))
    ensures var o := DispatchOutcome(env, base, lb, view, suffix);
            env.validate(lb).None? && view.stored.Success? && view.stored.value.uid != lb.uid ==>
              o == Outcome([], None)
    ensures var o := DispatchOutcome(env, base, lb, view, suffix);
            env.validate(lb).None? && view.stored.Success? && view.stored.value.uid == lb.uid &&
            view.stored.value.azureRequested && view.claimed.Failure? ==>
              o == Outcome([], Some(view.claimed.error))
    ensures var o := DispatchOutcome(env, base, lb, view, suffix);
            env.validate(lb).None? && view.stored.Success? && view.stored.value.uid == lb.uid &&
            view.stored.value.azureRequested && view.claimed.Success? &&
            view.stored.value.deletionTimestamp.Some? ==>
              o == Outcome([], None)
  {
  }

  /**
   * Every error a reconciliation returns either comes with no call and is the
   * validation error, the store error or the claim error, or is the answer to
   * the last call it made.
   */
  lemma DispatchErrorSources(env: Env, base: nat, lb: LoadBalancer, view: Cluster, suffix: string)
    requires view.claimed.Success? ==> AllWellFormed(view.claimed.value)
    ensures var o := DispatchOutcome(env, base, lb, view, suffix);
            o.err.Some? ==>
              || (&& o.actions == []
                  && (|| o.err == env.validate(lb)
                      || (view.stored.Failure? && o.err == Some(view.stored.error))
                      || (view.claimed.Failure? && o.err == Some(view.claimed.error))))
              || (&& |o.actions| > 0
                  && o.err == env.respond(base + |o.actions| - 1, o.actions[|o.actions| - 1]))
  {
    var o := DispatchOutcome(env, base, lb, view, suffix);
    DispatchEarlyReturns(env, base, lb, view, suffix);
    if env.validate(lb).None? {
      if view.stored == Failure(NotFound) {
        DispatchCleansUpGone(env, base, lb, view, suffix);
        CleanupErrorSources(env.respond, base, lb, view.claimed, false);
      } else if view.stored.Success? && view.stored.value.uid == lb.uid {
        var live := view.stored.value;
        if !live.azureRequested {
          DispatchCleansUpUnrequested(env, base, lb, view, suffix);
          CleanupErrorSources(env.respond, base, live, view.claimed, true);
        } else if view.claimed.Success? && live.deletionTimestamp.None? {
          DispatchSyncs(env, base, lb, view, suffix);
          SyncErrorSources(env, base, live, view.claimed.value, CanonicalPrefix(live.name),
                           GenerateDeployment(live, env.image, env.createdBy, suffix));
        }
      }
    }
  }

  /**
   * A reconciliation that finds the LoadBalancer gone, or live with the same
   * UID but no longer asking for azure, deletes every claimed Deployment once
   * the claim succeeds.
   */
  lemma DispatchCleanupDeletes(env: Env, base: nat, lb: LoadBalancer, view: Cluster, suffix: string)
    requires view.claimed.Success? ==> AllWellFormed(view.claimed.value)
    ensures var o := DispatchOutcome(env, base, lb, view, suffix);
            (&& env.validate(lb).None?
             && view.claimed.Success?
             && (|| view.stored == Failure(NotFound)
                 || (view.stored.Success? && view.stored.value.uid == lb.uid && !view.stored.value.azureRequested))) ==>
              forall d :: d in view.claimed.value ==> Delete(d.namespace, d.name) in o.actions
  {
    if env.validate(lb).None? {
      match view.stored
      case Failure(e) =>
        if e.NotFound? {
          CleanupDeletesAll(env.respond, base, lb, view.claimed, false);
        }
      case Success(live) =>
        if lb.uid == live.uid && !live.azureRequested {
          CleanupDeletesAll(env.respond, base, live, view.claimed, true);
        }
    }
  }
}

=== FILE: wrappers.dfy ===
/** Optional values and results with an error, for the Go pattern `(value, err)`. */
module Wrappers {

  datatype Option<+T> = None | Some(value: T)

  datatype Result<+T, +E> = Success(value: T) | Failure(error: E)
}
